=== FILE: README.md ===
# IPL scraper job engine, modelled in Dafny

This project models the job-execution core of the IPL analytics site's
scraper app. The core has four parts:

- **Scraper jobs.** A `ScraperJob` row names a job type (TEAM, PLAYER,
  MATCH, STADIUM or LIVE) and a URL. Its status moves through PENDING,
  RUNNING, then COMPLETED or FAILED.
- **Scrapers.** A scraper is built for a job. Building it marks the job
  RUNNING. It fetches the page (by plain HTTP, or through a headless
  browser for players) and reads every container element of its kind, in
  document order. Each container is reconciled against the league
  tables (Team, Player, Stadium, Match). Reconciling means:
  - a placeholder Team or Stadium is created for each name the container
    refers to that does not exist yet;
  - the row is then written with `update_or_create` on its natural key;
  - an INFO log row says whether the row was created or updated.
  
  The job then ends COMPLETED. If anything raises, an ERROR row is written
  and the job ends FAILED. Rows written before the failure stay written.
- **The `run_scraper` management command.** It picks the job from its
  options in a fixed order of precedence: job id, then configuration id,
  then data source plus type, then type plus URL. It then runs the job.
- **The REST actions.** These re-run a job, list a job's log, and
  schedule a job from a configuration.

The whole persistent state is one immutable value, `Ledger.World`:

- jobs by id, with the id sequence;
- the append-only log;
- data sources by name and configurations by id;
- the league tables, as four maps keyed by natural key;
- a clock.

Every operation is a pure function from one `World` to the next. Every
reading of "now" takes the clock and advances it. This covers the job
timestamps and each log row's automatic timestamp. As a result, log rows
are strictly ordered in time in the model; the source promises less (see
"Left out").

Everything outside the process is a parameter of the run, an `Env`:

- the page an HTTP GET yields, or its error text;
- whether the browser starts;
- the page the browser renders, or its error text;
- the two `strptime` parsers, as partial functions.

A page is the sequence of its container blocks. A block's sub-elements are
already located; a missing one is `None`.

Modules:

- `Wrappers`: `Option` and `Result`.
- `Text`: decimal digits, `int()` on digit strings, `str.replace`,
  `split('#')[1]`, `repr`, upper-casing and zero padding.
- `Entities`: the league tables and their natural keys.
- `Ledger`: the job, log, source and configuration tables, and the `World`.
- `Extraction`: reading one container into a record, field by field, in
  source order.
- `Reconciliation`: placeholders, `update_or_create`, and the per-record
  log row.
- `Scrapers`: construction, `log`, `finish_job`, the fetch failures, `run`
  and `get_scraper`.
- `ScraperProperties`: no rollback, last write wins, and how a run ends.
- `RunScraperCommand`: the management command.
- `ScraperViews`: the three REST actions.

## Model

| member | source | states |
|---|---|---|
| Text.ParseNatToString | IPL/scraper/scrapers.py:230-231 | `int()` reads back every natural number written in decimal |
| Extraction.Select | IPL/scraper/scrapers.py:108 | every selected container has the class, and a container of the page is selected iff it has the class |
| Extraction.SelectAppend | IPL/scraper/scrapers.py:108 | selecting from two parts of a page gives the selection of the first part followed by that of the second, so document order is kept |
| Extraction.SelectOne | IPL/scraper/scrapers.py:108 | a single container is selected, once, exactly when it has the class |
| Extraction.Need | IPL/scraper/scrapers.py:111-113 | reading a sub-element succeeds exactly when it is present, and a missing one fails with the error given for it |
| Extraction.ParseFailsAtFirstCheck | IPL/scraper/scrapers.py:111-113 | a container fails to read exactly when one of its field checks fails (team, player, match and stadium fields in the order lines 111-113, 164-166, 230-242 and 310-316 read them), and the error is that of the first failing check |
| Extraction.TeamFailsAtFirstCheck | IPL/scraper/scrapers.py:111-113 | a team container stops at its first missing field: name, short name, then logo image |
| Extraction.PlayerFailsAtFirstCheck | IPL/scraper/scrapers.py:164-166 | a player element stops at its first missing field: name, team, then role |
| Extraction.MatchFailsAtFirstCheck | IPL/scraper/scrapers.py:230-242 | a match container stops at its first failing check: number (present, then converted), season (present, converted), date and time present, date then time converted, then home, away and venue |
| Extraction.StadiumFailsAtFirstCheck | IPL/scraper/scrapers.py:310-316 | a stadium container stops at its first failing check: name, city, country, capacity present, then the capacity converted |
| Extraction.StopsAtThen | IPL/scraper/scrapers.py:230-242 | a read done in stages stops at the first failing check of all the stages together |
| Extraction.ParseReads | IPL/scraper/scrapers.py:164-166 | a container reads iff every field is present (and, for a match, the number, season, date and time convert; for a stadium, the capacity converts), and the record carries those texts, the role code of the role label, and the converted values |
| Text.Repr | IPL/scraper/scrapers.py:231 | the quoted text begins and ends with one quote, a double quote exactly when the text holds a single quote and no double quote |
| Text.ReprPlain | IPL/scraper/scrapers.py:231 | the text `int()` quotes in its error is shown between single quotes when it holds no quote, backslash or line break |
| Extraction.ParseInt | IPL/scraper/scrapers.py:231 | `int(text)` succeeds exactly on non-empty digit strings; otherwise the error carries the text |
| Extraction.ParseCapacity | IPL/scraper/scrapers.py:313-316 | empty capacity text is no capacity; otherwise it parses exactly when the text without commas is a number, and a failure names that text |
| Extraction.CapacityOfDigits | IPL/scraper/scrapers.py:316 | a capacity printed as digits parses back to itself |
| Extraction.CapacityIgnoresSeparator | IPL/scraper/scrapers.py:316 | a thousands separator anywhere in the capacity changes nothing |
| Extraction.CapacityExample | IPL/scraper/scrapers.py:313-316 | "54,000" is 54000 seats and "" is no capacity |
| Extraction.ParseMatchNumber | IPL/scraper/scrapers.py:230 | the match number fails with the index error exactly when the text has no '#' |
| Extraction.MatchNumberOf | IPL/scraper/scrapers.py:230 | a number written after the first '#' and up to the next '#' or the end parses back |
| Extraction.RoleOf | IPL/scraper/scrapers.py:169-175 | the role is the one whose label is shown, or BAT when no label matches |
| Extraction.RoleOfLabel | IPL/scraper/scrapers.py:169-175 | every role is recovered from its own label |
| Reconciliation.ShortCode | IPL/scraper/scrapers.py:182 | a placeholder's short name is the name's first three characters (fewer if the name is shorter), upper-cased |
| Reconciliation.ResolveTeam | IPL/scraper/scrapers.py:178-182 | afterwards the team exists; an existing team changes nothing; a missing one gets a WARNING row, then a placeholder with its short code and nothing else |
| Reconciliation.ResolveStadium | IPL/scraper/scrapers.py:257-261 | afterwards the venue exists; a missing one gets a WARNING row, then a placeholder in city "Unknown", country "India" |
| Reconciliation.FixtureAdded | IPL/scraper/scrapers.py:245-261 | the match scraper's three lookups add only placeholders for the two teams and the venue, and afterwards all three resolve |
| Reconciliation.PlaceholdersAdded | IPL/scraper/scrapers.py:178-182 | resolving a record's references adds only placeholders for them, and afterwards every reference resolves |
| Reconciliation.ResolveFixture | IPL/scraper/scrapers.py:245-261 | after the lookups of home team, away team and venue, in that order, all three exist, the store is the one those three lookups give, and the log gains exactly one WARNING row per name missing when its turn came, in that order and at successive times |
| Reconciliation.ResolveRefs | IPL/scraper/scrapers.py:178-182 | resolving a record's references leaves the store `Placeholders` describes, writes exactly the WARNING rows `Warnings` lists for them in lookup order, and changes no job |
| Reconciliation.WarningsNone | IPL/scraper/scrapers.py:245-261 | when every referenced name already exists, the lookups write no WARNING row |
| Reconciliation.WarnedInTurn | IPL/scraper/scrapers.py:245-261 | three lookups, each writing the warning for its own name, together write the warnings for the three names in turn |
| Reconciliation.UpsertTeam | IPL/scraper/scrapers.py:116-122 | created iff the name was new; short name and logo written; home venue and captain kept (or empty if new); no other row changes |
| Reconciliation.UpsertPlayer | IPL/scraper/scrapers.py:185-192 | keyed by (name, team); role written and nationality "Unknown"; other columns kept or empty; no other row changes |
| Reconciliation.UpsertStadium | IPL/scraper/scrapers.py:319-326 | city, country and capacity written (capacity even when empty); pitch type kept; no other row changes |
| Reconciliation.UpsertMatch | IPL/scraper/scrapers.py:264-275 | keyed by (number, season); date, time, teams and venue written and status forced to SCHEDULED; the result columns kept (or empty if new) |
| Reconciliation.UpsertRecord | IPL/scraper/scrapers.py:116-122 | the row is reported created iff its key was absent |
| Reconciliation.UpsertRecordRow | IPL/scraper/scrapers.py:116-122 | the record's row carries its fields, its other columns are kept (or empty when new), and every other row is unchanged |
| Reconciliation.Announce | IPL/scraper/scrapers.py:124-127 | the message reads as a creation exactly when the row was created, and as an update otherwise |
| Reconciliation.Reconcile | IPL/scraper/scrapers.py:110-127 | the last log row is this job's INFO row, saying "created" iff the key was absent and "updated" iff present (its full text is stated by ReconcileAnnounces); jobs, sources and configurations untouched; no row lost |
| Reconciliation.ReconcileAnnounces | IPL/scraper/scrapers.py:124-127 | the last row is this job's INFO row stamped now, reading "Created new " when the key was absent and "Updated " otherwise, then the table and the entity (`Announcement`): a team's name, a player's name and team, a stadium's name and city (lines 329-331), or a match's two short names, stored or placeholder, and ISO date as `Match.__str__` renders it (lines 278-280) |
| Reconciliation.NewStadiumAnnounced | IPL/scraper/scrapers.py:318-331 | a new stadium "Wankhede Stadium" of "Mumbai" is logged as exactly one row, "Created new stadium: Wankhede Stadium, Mumbai" |
| Reconciliation.ReconcileLogs | IPL/scraper/scrapers.py:245-279 | one iteration writes exactly the WARNING rows for its missing references, in lookup order, then one INFO row, and no other row |
| Reconciliation.ReconcileApplies | IPL/scraper/scrapers.py:116-127 | after one record: its row reflects it, unwritten columns are kept or empty, references resolve, other rows are unchanged, and the only new rows are its placeholders |
| Reconciliation.ReconcileStore | IPL/scraper/scrapers.py:110-127 | the rows written depend on the store and the record alone, not on the job, the log or the clock |
| Reconciliation.ReconciledApplies | IPL/scraper/scrapers.py:116-127 | the same row-by-row account for the store-only step `Reconciled` |
| Reconciliation.ReconciledKeepsRow | IPL/scraper/scrapers.py:116-122 | a row the record does not name keeps its value |
| Reconciliation.AppliedKeeps | IPL/scraper/scrapers.py:116-122 | one iteration never deletes a row |
| Reconciliation.ReconcileTwice | IPL/scraper/scrapers.py:116-127 | reconciling the same record again leaves its row as it was and logs an update |
| Reconciliation.ReconciledIdempotent | IPL/scraper/scrapers.py:116-122 | a second pass of the same record leaves its row as the first pass wrote it |
| Ledger.NewJob | IPL/scraper/management/commands/run_scraper.py:87-92 | a new job is PENDING with its type and URL and no start, end or error |
| Ledger.Append | IPL/scraper/scrapers.py:32-40 | a log row is appended at the end, stamped with the present, and only the log and clock change |
| Ledger.StampedAppend | IPL/scraper/scrapers.py:32-40 | writing two batches of rows one after the other is writing them as one batch |
| Ledger.Enqueue | IPL/scraper/views.py:108-113 | the next id names a new PENDING job scheduled now; no other job is overwritten |
| Scrapers.Registry | IPL/scraper/scrapers.py:342-354 | a job type has no scraper exactly when it is LIVE |
| Scrapers.Construct | IPL/scraper/scrapers.py:21-30 | an id naming a job (and not 0) attaches the scraper and marks that job RUNNING with a start time; other ids change nothing |
| Scrapers.Log | IPL/scraper/scrapers.py:32-40 | a row is written exactly when a job is attached, and only to the log |
| Scrapers.FinishJob | IPL/scraper/scrapers.py:78-84 | status, error message and end time are written together; nothing else changes |
| Scrapers.Fetch | IPL/scraper/scrapers.py:42-76 | the static fetch yields the GET's page, or fails inside the helper with the request error and its log text, and never raises; the browser path fails inside the helper with the driver error, raises the navigation error or the wait's timeout, and yields the rendered page exactly when the page has a player container |
| Scrapers.Process | IPL/scraper/scrapers.py:110-127 | the loop succeeds exactly when every container reads; it logs only for this job; it changes no job, source or configuration; it loses no row |
| Scrapers.Fail | IPL/scraper/scrapers.py:132-134 | the handler writes one ERROR row for the job, then marks it FAILED with the cause as its error, writing no league row |
| Scrapers.Succeed | IPL/scraper/scrapers.py:129-130 | the job is marked COMPLETED, then one INFO completion row follows, and no league row is written |
| Scrapers.Scrape | IPL/scraper/scrapers.py:102-134 | whatever the fetch and the containers give, the job ends COMPLETED or FAILED, and only its own rows are logged |
| Scrapers.Run | IPL/scraper/scrapers.py:94-134 | without a job nothing is written; with one, the job ends COMPLETED (no error) or FAILED (with error) with an end time, its other fields and every other job unchanged, and the log grows only with its own rows |
| Scrapers.GetScraper | IPL/scraper/scrapers.py:342-356 | LIVE yields no scraper and no write; other types construct the scraper for the id |
| Scrapers.Dispatch | IPL/scraper/management/commands/run_scraper.py:97-102 | a scraper exists iff the type is not LIVE; when it runs an existing job, that job goes RUNNING then terminal, its start before its end |
| ScraperProperties.NoRollback | IPL/scraper/scrapers.py:110-134 | when container k is the first that does not read, the state left is exactly that of a complete loop over containers 0..k-1 |
| ScraperProperties.ProcessStore | IPL/scraper/scrapers.py:110-127 | the league rows a loop leaves equal the reference fold `Stored` over the store and the page alone |
| ScraperProperties.StoredUpToFailure | IPL/scraper/scrapers.py:132-134 | a failing container leaves the rows of every container before it written |
| ScraperProperties.StoredUntouched | IPL/scraper/scrapers.py:110-127 | in the reference fold, an existing row that no container names stays as it was |
| ScraperProperties.RowUntouched | IPL/scraper/scrapers.py:110-127 | an existing row that no container names stays as it was |
| ScraperProperties.StoredLastWrite | IPL/scraper/scrapers.py:110-127 | in the reference fold, a key's row carries the fields of the last container naming it |
| ScraperProperties.LastWriteWins | IPL/scraper/scrapers.py:110-127 | after a complete loop, each key's row carries the fields of the last container naming that key |
| ScraperProperties.RunStartsWithAnnouncement | IPL/scraper/scrapers.py:100 | the first row a run writes is the INFO "Starting ... scraper for URL" row |
| ScraperProperties.RaisedFetchFailsJob | IPL/scraper/scrapers.py:153-202 | a raised fetch happens only for players (navigation error or wait timeout); the job is FAILED with the exception's text, the second of exactly two rows is the ERROR row "Error in player scraper: " and that text, and no league row is written |
| ScraperProperties.UnreachablePageFailsJob | IPL/scraper/scrapers.py:42-57 | an unfetchable page fails the job with the fetch error, adds exactly the start row and the ERROR row, and writes no league row |
| ScraperProperties.RunCompletesIffAllRead | IPL/scraper/scrapers.py:102-134 | the job ends COMPLETED iff the page was fetched (for players: rendered with a player container) and every container read; the league rows are the fold of the page, or untouched if no page |
| ScraperProperties.UnreadableContainerFailsJob | IPL/scraper/scrapers.py:132-134 | an unreadable container fails the job with its error text, as the last ERROR row also says, and keeps the rows of the containers before it |
| ScraperProperties.CompletedRunAnnouncesSuccess | IPL/scraper/scrapers.py:129-130 | a completed run ends with the INFO "... scraper completed successfully" row |
| RunScraperCommand.ActiveConfigs | IPL/scraper/management/commands/run_scraper.py:63-67 | the candidates are exactly the active configurations of that source and type |
| RunScraperCommand.Resolve | IPL/scraper/management/commands/run_scraper.py:20-84 | an existing job is run only for a truthy id naming it; a job to create always has a non-empty URL |
| RunScraperCommand.Handle | IPL/scraper/management/commands/run_scraper.py:20-102 | an error changes nothing; an existing job is run (or, for LIVE, left alone); otherwise a new job is created from the next id, with its type, URL and schedule, then run, or left PENDING for LIVE |
| RunScraperCommand.JobIdOverridesAll | IPL/scraper/management/commands/run_scraper.py:28-42 | a truthy job id decides alone: other options do not matter, and an unknown id is an error |
| RunScraperCommand.ConfigIdOverridesRest | IPL/scraper/management/commands/run_scraper.py:45-56 | without a job id, a truthy configuration id decides alone, supplying type and URL pattern; an unknown one is an error |
| RunScraperCommand.ConfigIdIgnoresActivity | IPL/scraper/management/commands/run_scraper.py:47 | a configuration chosen by id is used whether active or not |
| RunScraperCommand.SourceConfigSuppliesUrl | IPL/scraper/management/commands/run_scraper.py:59-72 | a known source with one active configuration for the type supplies the URL, replacing a given one |
| RunScraperCommand.AmbiguousSourceConfig | IPL/scraper/management/commands/run_scraper.py:63-67 | several active configurations for the pair are an error whatever URL was given |
| RunScraperCommand.SourceFallsBackToUrl | IPL/scraper/management/commands/run_scraper.py:73-80 | an unknown source, or one without an active configuration, falls back to the given URL, or fails with its own message |
| RunScraperCommand.DirectJobNeedsTypeAndUrl | IPL/scraper/management/commands/run_scraper.py:83-92 | otherwise a job is created iff a type and a non-empty URL are given, else the "must provide" error |
| ScraperViews.Reset | IPL/scraper/views.py:35-40 | a re-run job is PENDING with no start, end or error, and keeps type, URL and schedule |
| ScraperViews.RunAction | IPL/scraper/views.py:24-34 | unknown id is 404 and RUNNING is 400, both with no write; any other job is re-run; no job appears or disappears and only that job's log grows |
| ScraperViews.Rerun | IPL/scraper/views.py:35-51 | the reset job runs to a terminal state (status 200), or for LIVE stays reset to PENDING (status 500); only that job's log grows |
| ScraperViews.OfJob | IPL/scraper/views.py:57 | exactly the rows of the job |
| ScraperViews.OfJobChronological | IPL/scraper/views.py:57 | the job's rows keep the log's time order |
| ScraperViews.NewestFirst | IPL/scraper/models.py:47-48 | reversing rows in time order lists the same rows, newest first |
| ScraperViews.LogsAction | IPL/scraper/views.py:53-59 | unknown job is 404; otherwise exactly the job's rows, newest first |
| ScraperViews.Schedule | IPL/scraper/views.py:102-122 | unknown configuration is 404; otherwise one new PENDING job with the configuration's type and URL, which is not run, and the configuration's last run is stamped after it; nothing else changes |
| ScraperViews.OfJobIgnoresOthers | IPL/scraper/views.py:57 | rows of other jobs appended to the log do not show in a job's list |
| ScraperViews.OthersUnaffected | IPL/scraper/views.py:53-59 | appending rows of one job leaves every other job's log list as it was |
| ScraperViews.RunLeavesOtherLogs | IPL/scraper/views.py:24-59 | re-running one job leaves every other job's log list exactly as it was |
| ScraperViews.RerunForgetsPreviousOutcome | IPL/scraper/views.py:35-45 | how a non-running job ended before does not affect its re-run |

## Left out

- The network, BeautifulSoup and Selenium are not modelled. A page is
  given as its sequence of container blocks (`Env`). This leaves out:
  - the request headers;
  - `raise_for_status`;
  - the browser options and `driver.quit()`;
  - the ten seconds of the wait. A rendered page without a
    `.player-container` raises the wait's `TimeoutException`
    (`Scrapers.WaitTimedOut`); a container that would appear during the
    wait counts as already in the rendered page.
- `.text` and `.strip()` are not modelled. Block fields are the texts
  the scraper reads: stripped for the text fields of the three
  BeautifulSoup scrapers, the element's `.text` as the browser gives it
  for players. The team logo is the raw `src` attribute of the `img`,
  which the source does not strip.
- `strptime` with '%d %b %Y' and '%H:%M' is a given function
  (`Parsers`). It yields the value or the text of the `ValueError` it
  raises, whichever of "does not match format" or "unconverted data
  remains" that is. Month-name tables and calendar checks are not
  modelled.
- Extraction.ParseInt: accepts only non-empty ASCII digit strings. Python's
  `int()` also accepts surrounding whitespace, a sign, digit-separating
  underscores, and the decimal digits of every Unicode script (such as
  "١٢" or the fullwidth "１２").
- Extraction.Describe: the texts follow Python's exceptions:
  - `AttributeError` for `.text` on a missing BeautifulSoup sub-element;
  - `TypeError` for `None['src']` when the logo `img` is missing;
  - `int()`'s message, quoting the text with `repr`. CPython formats it
    with `%.200R`, which cuts the quoted text at 200 characters. The
    model quotes the whole text, so for a longer non-numeric capacity or
    season its ERROR row and job error are longer than the source's;
  - the index error of `split('#')[1]`;
  - `strptime`'s own message.

  Gaps: a logo `img` without a `src` (a `KeyError`) is treated like a
  missing `img`. Selenium's `NoSuchElementException` is given its first
  line only; the session and stack-trace lines the driver appends are not
  modelled.
- Text.Repr: escapes the quote, backslash, newline, carriage return and
  tab. Python also escapes other non-printable characters as `\x..`,
  `\u....` or `\U........`; that is not modelled.
- Scrapers.WaitTimedOut: the text of a `TimeoutException` without a
  message. Screenshot or stack-trace lines some drivers add are not
  modelled.
- Column sizes are not modelled. Numbers are unbounded `nat` and texts
  are unbounded strings. The tables declare `PositiveIntegerField` and
  `CharField(max_length=...)`. In the source, a capacity, season or
  match number beyond the database's integer range fails the job, and so
  does a text longer than its column. The model stores them.
- Reconciliation.ShortCode: upper-cases ASCII letters only. Python's
  `str.upper` covers all of Unicode.
- Natural keys are map keys, so each is unique: the names of teams,
  stadiums and data sources, a player's (name, team) and a match's
  (number, season). The tables declare no unique constraint for any of
  them. The `MultipleObjectsReturned` a duplicated key would raise in
  `Team.objects.get`, `Stadium.objects.get`, `DataSource.objects.get` or
  inside `update_or_create` (its internal `get`) is not modelled.
- RunScraperCommand.Handle: the success and error lines written to
  standard output are not modelled. Several active configurations give
  `MultipleConfigs(count)`, not Django's exception text.
- Python `logging` output beside the database rows is not modelled.
- The `created_at` and `updated_at` audit columns are not modelled.
  Neither are the float statistics, predictions and innings tables, or
  the selector payloads of configurations, which no scraper reads.
- Database transactions and concurrent runs of the same job are not
  modelled. Each operation is one atomic step on the state.
- No two readings of "now" coincide in the model: each one advances the
  clock. In the source, two `auto_now_add` or `timezone.now()` readings
  can be equal. So log timestamps are only non-decreasing, and rows with
  equal timestamps are listed newest first (`ordering = ['-timestamp']`)
  in an order the database chooses. A job's end time can also equal its
  start time. `ScraperViews.NewestFirst`, `ScraperViews.LogsAction` and
  `Ledger.Valid` rely on the strict order.
- Request query parameters are not modelled. In the source, the three
  actions look the object up through the view's filter backends
  (their filter fields, such as `status` and `job_type` for jobs or
  `is_active` for configurations, and the search parameter). So
  `POST jobs/5/run/?status=COMPLETED` answers 404 for an existing PENDING
  job, and an invalid filter value answers 400. The model looks the id up
  in the whole table.
- Response serialization is not modelled. A view's response is its status
  and the rows or id it returns.
- ScraperProperties.LastWriteWins: states only the columns a record
  writes (`Reflects`). The other columns are covered by `ReconcileApplies`
  and `RowUntouched`.

=== FILE: command.dfy ===
/** The `run_scraper` management command: which job to run is resolved from
    its options in a fixed order of precedence (an existing job id, then a
    configuration id, then a data source with a job type, then a bare job
    type and URL); then either the existing job is run or a new PENDING job
    is created and run. */
module RunScraperCommand {
  import opened Wrappers
  import opened Text
  import opened Ledger
  import opened Scrapers

  /** The command-line options; an absent option is `None`. */
  datatype Options = Options(
    jobId: Option<int>,
    jobType: Option<JobType>,
    url: Option<string>,
    dataSource: Option<string>,
    configId: Option<int>)

  /** What the options resolve to: an existing job, a new job to create, a
      `CommandError`, or the uncaught error of a configuration lookup that
      matched several rows. */
  datatype Resolution =
    | RunExisting(id: int)
    | CreateJob(jobType: JobType, url: string)
    | CommandFailure(message: string)
    | MultipleConfigs(count: nat)

  /** An integer option is truthy when given and not 0. */
  predicate Truthy(o: Option<int>) {
    o.Some? && o.value != 0
  }

  /** A text option is truthy when given and not empty. */
  predicate Given(o: Option<string>) {
    o.Some? && o.value != ""
  }

  const MissingParameters := "You must provide either a job ID, a configuration ID, or job type and URL"

  /** Whether `c` is an active configuration of `source` for job type `t`. */
  predicate ActiveFor(c: ScraperConfig, source: string, t: JobType) {
    c.dataSource == source && c.scraperType == t && c.isActive
  }

  /** The ids `ScraperConfig.objects.get(data_source=..., scraper_type=...,
      is_active=True)` looks among. */
  function ActiveConfigs(w: World, source: string, t: JobType): (ids: set<int>)
    ensures forall id :: id in ids <==> id in w.configs && ActiveFor(w.configs[id], source, t)
  {
    set id | id in w.configs && ActiveFor(w.configs[id], source, t)
  }

  /** A set of one element has a member, and only one. */
  lemma SingletonMembers(ids: set<int>)
    requires |ids| == 1
    ensures exists id :: id in ids
    ensures forall a, b :: a in ids && b in ids ==> a == b
  {
    if forall id :: id !in ids {
      assert false;
    }
    forall a, b | a in ids && b in ids ensures a == b {
      assert |ids - {a}| == 0;
      assert ids - {a} == {};
      assert b !in ids - {a};
    }
  }

  /** Job type and URL after the configuration lookups, or the error one of
      them raised. */
  function Target(w: World, o: Options): Result<(Option<JobType>, Option<string>), Resolution>
  {
    if Truthy(o.configId) then
      var id := o.configId.value;
      if id in w.configs then
        Success((Some(w.configs[id].scraperType), Some(w.configs[id].urlPattern)))
      else
        Failure(CommandFailure("ScraperConfig with ID " + IntToString(id) + " does not exist"))
    else if Given(o.dataSource) && o.jobType.Some? then
      var name := o.dataSource.value;
      var t := o.jobType.value;
      if name in w.sources then
        var ids := ActiveConfigs(w, name, t);
        if |ids| == 1 then
          SingletonMembers(ids);
          var id :| id in ids;
          Success((o.jobType, Some(w.configs[id].urlPattern)))
        else if |ids| > 1 then
          Failure(MultipleConfigs(|ids|))
        else if !Given(o.url) then
          Failure(CommandFailure("No active configuration found for " + name + " - " + TypeCode(t) + " and no URL provided"))
        else
          Success((o.jobType, o.url))
      else if !Given(o.url) then
        Failure(CommandFailure("DataSource " + name + " does not exist and no URL provided"))
      else
        Success((o.jobType, o.url))
    else
      Success((o.jobType, o.url))
  }

  /** The precedence resolution of `handle`. */
  function Resolve(w: World, o: Options): (r: Resolution)
    ensures r.RunExisting? ==> Truthy(o.jobId) && r.id == o.jobId.value && r.id in w.jobs
    ensures r.CreateJob? ==> r.url != "" && !Truthy(o.jobId)
  {
    if Truthy(o.jobId) then
      var id := o.jobId.value;
      if id in w.jobs then RunExisting(id)
      else CommandFailure("ScraperJob with ID " + IntToString(id) + " does not exist")
    else
      match Target(w, o)
      case Failure(r) => r
      case Success((t, url)) =>
        if t.None? || !Given(url) then CommandFailure(MissingParameters)
        else CreateJob(t.value, url.value)
  }

  /** What `handle` ends with: a run (of a job that had a scraper), a job
      with no scraper, or the error it raised. */
  datatype Reply =
    | JobRun(id: int)
    | NoScraper(id: int)
    | Refused(resolution: Resolution)

  /** `Command.handle`. */
  function Handle(w: World, o: Options, env: Env): (r: (World, Reply))
    ensures !Resolve(w, o).RunExisting? && !Resolve(w, o).CreateJob? ==>
      r == (w, Refused(Resolve(w, o)))
    ensures Resolve(w, o).RunExisting? ==>
      var id := Resolve(w, o).id;
      && (r.1 == JobRun(id) <==> w.jobs[id].jobType != LiveData)
      && (r.1 == NoScraper(id) <==> w.jobs[id].jobType == LiveData)
      && (w.jobs[id].jobType == LiveData ==> r.0 == w)
      && (w.jobs[id].jobType != LiveData ==> Lifecycle(w, r.0, id))
    ensures Resolve(w, o).CreateJob? ==>
      var id := w.nextJobId;
      var c := Resolve(w, o);
      && r.0.nextJobId == id + 1 && r.0.jobs.Keys == w.jobs.Keys + {id}
      && r.0.jobs[id].jobType == c.jobType && r.0.jobs[id].url == c.url
      && r.0.jobs[id].scheduledTime == w.clock
      && (r.1 == JobRun(id) <==> c.jobType != LiveData)
      && (r.1 == NoScraper(id) <==> c.jobType == LiveData)
      && (c.jobType == LiveData ==> r.0.jobs[id].status == Pending)
      && (Valid(w) && c.jobType != LiveData ==> id !in w.jobs && Lifecycle(Enqueue(w, c.jobType, c.url).0, r.0, id))
    ensures Valid(w) ==> Valid(r.0)
  {
    match Resolve(w, o)
    case RunExisting(id) =>
      var (w', built) := Dispatch(w, w.jobs[id].jobType, id, env);
      (w', if built then JobRun(id) else NoScraper(id))
    case CreateJob(t, url) =>
      var (w1, id) := Enqueue(w, t, url);
      var (w', built) := Dispatch(w1, t, id, env);
      (w', if built then JobRun(id) else NoScraper(id))
    case other => (w, Refused(other))
  }

  // ---------------------------------------------------------------------
  // Precedence

  /** A truthy job id decides alone: no other option is looked at, and no
      new job is ever created for it. */
  lemma JobIdOverridesAll(w: World, o: Options, o': Options)
    requires Truthy(o.jobId) && o'.jobId == o.jobId
    ensures Resolve(w, o) == Resolve(w, o')
    ensures Resolve(w, o).RunExisting? <==> o.jobId.value in w.jobs
    ensures Resolve(w, o).CommandFailure? <==> o.jobId.value !in w.jobs
  {
  }

  /** Without a job id, a truthy configuration id decides alone: the given
      job type, URL and data source are ignored, and so is whether the
      configuration is active. */
  lemma ConfigIdOverridesRest(w: World, o: Options, o': Options)
    requires !Truthy(o.jobId) && !Truthy(o'.jobId)
    requires Truthy(o.configId) && o'.configId == o.configId
    ensures Resolve(w, o) == Resolve(w, o')
    ensures o.configId.value in w.configs && w.configs[o.configId.value].urlPattern != "" ==>
      var c := w.configs[o.configId.value];
      Resolve(w, o) == CreateJob(c.scraperType, c.urlPattern)
    ensures o.configId.value in w.configs && w.configs[o.configId.value].urlPattern == "" ==>
      Resolve(w, o) == CommandFailure(MissingParameters)
    ensures o.configId.value !in w.configs ==> Resolve(w, o).CommandFailure?
  {
  }

  lemma ConfigIdIgnoresActivity(w: World, o: Options, active: bool)
    requires !Truthy(o.jobId) && Truthy(o.configId) && o.configId.value in w.configs
    ensures var id := o.configId.value;
      Resolve(w.(configs := w.configs[id := w.configs[id].(isActive := active)]), o) == Resolve(w, o)
  {
  }

  /** With a known data source and a job type, the one active configuration
      for them supplies the URL, replacing any URL given. */
  lemma SourceConfigSuppliesUrl(w: World, o: Options, id: int)
    requires !Truthy(o.jobId) && !Truthy(o.configId)
    requires Given(o.dataSource) && o.jobType.Some? && o.dataSource.value in w.sources
    requires ActiveConfigs(w, o.dataSource.value, o.jobType.value) == {id}
    ensures w.configs[id].urlPattern != "" ==>
      Resolve(w, o) == CreateJob(o.jobType.value, w.configs[id].urlPattern)
    ensures w.configs[id].urlPattern == "" ==> Resolve(w, o) == CommandFailure(MissingParameters)
  {
    assert id in ActiveConfigs(w, o.dataSource.value, o.jobType.value);
  }

  /** Several active configurations for the pair are an error, whatever URL
      was given. */
  lemma AmbiguousSourceConfig(w: World, o: Options)
    requires !Truthy(o.jobId) && !Truthy(o.configId)
    requires Given(o.dataSource) && o.jobType.Some? && o.dataSource.value in w.sources
    requires |ActiveConfigs(w, o.dataSource.value, o.jobType.value)| > 1
    ensures Resolve(w, o) == MultipleConfigs(|ActiveConfigs(w, o.dataSource.value, o.jobType.value)|)
  {
  }

  /** When the data source is unknown or has no active configuration for
      the type, the given URL is used, and without one the command fails. */
  lemma SourceFallsBackToUrl(w: World, o: Options)
    requires !Truthy(o.jobId) && !Truthy(o.configId)
    requires Given(o.dataSource) && o.jobType.Some?
    requires o.dataSource.value !in w.sources || ActiveConfigs(w, o.dataSource.value, o.jobType.value) == {}
    ensures Given(o.url) ==> Resolve(w, o) == CreateJob(o.jobType.value, o.url.value)
    ensures !Given(o.url) ==> Resolve(w, o) == CommandFailure(
      if o.dataSource.value in w.sources
      then "No active configuration found for " + o.dataSource.value + " - " + TypeCode(o.jobType.value) + " and no URL provided"
      else "DataSource " + o.dataSource.value + " does not exist and no URL provided")
  {
  }

  /** With neither id and no data source/type pair, a job is created exactly
      when both a type and a non-empty URL are given. */
  lemma DirectJobNeedsTypeAndUrl(w: World, o: Options)
    requires !Truthy(o.jobId) && !Truthy(o.configId)
    requires !(Given(o.dataSource) && o.jobType.Some?)
    ensures Resolve(w, o).CreateJob? <==> o.jobType.Some? && Given(o.url)
    ensures Resolve(w, o).CreateJob? ==> Resolve(w, o) == CreateJob(o.jobType.value, o.url.value)
    ensures !Resolve(w, o).CreateJob? ==> Resolve(w, o) == CommandFailure(MissingParameters)
  {
  }
}

=== FILE: entities.dfy ===
/** The league records the scrapers reconcile against (Team, Player, Stadium,
    Match), stored in four maps keyed by each record's natural key, so that
    "at most one row per key" holds by construction. Float columns, audit
    timestamps and the prediction tables are not part of this model. */
module Entities {
  import opened Wrappers

  /** Player role codes. */
  datatype Role = BAT | BWL | AR | WK

  datatype MatchStatus = Scheduled | Live | Completed | Cancelled

  datatype Date = Date(year: nat, month: nat, day: nat)

  datatype Time = Time(hour: nat, minute: nat)

  /** Natural key of a Player: its name and the name of its team. */
  datatype PlayerId = PlayerId(name: string, team: string)

  /** Natural key of a Match: its number within a season. */
  datatype MatchId = MatchId(number: nat, season: nat)

  /** A Team row; its name is the key it is stored under. */
  datatype Team = Team(
    shortName: string,
    logo: Option<string>,
    homeVenue: Option<string>,
    captain: Option<PlayerId>)

  datatype Player = Player(
    role: Role,
    battingStyle: Option<string>,
    bowlingStyle: Option<string>,
    nationality: string,
    dateOfBirth: Option<Date>,
    imageUrl: Option<string>)

  datatype Stadium = Stadium(
    city: string,
    country: string,
    capacity: Option<nat>,
    pitchType: Option<string>)

  /** A Match row; team and venue references are the referenced rows' names. */
  datatype Match = Match(
    date: Date,
    time: Time,
    home: string,
    away: string,
    venue: string,
    tossWinner: Option<string>,
    tossDecision: Option<string>,
    winner: Option<string>,
    winType: Option<string>,
    winMargin: Option<nat>,
    playerOfMatch: Option<PlayerId>,
    status: MatchStatus)

  datatype Store = Store(
    teams: map<string, Team>,
    players: map<PlayerId, Player>,
    stadiums: map<string, Stadium>,
    matches: map<MatchId, Match>)

  /** The display label of each role code. */
  function RoleLabel(r: Role): string {
    match r
    case BAT => "Batsman"
    case BWL => "Bowler"
    case AR => "All-Rounder"
    case WK => "Wicket Keeper"
  }

  /** Any row of the store, addressed by table and natural key. */
  datatype Key =
    | TeamKey(name: string)
    | PlayerKey(player: PlayerId)
    | StadiumKey(name: string)
    | MatchKey(id: MatchId)

  datatype Row =
    | TeamRow(team: Team)
    | PlayerRow(player: Player)
    | StadiumRow(stadium: Stadium)
    | MatchRow(game: Match)

  function Lookup(s: Store, k: Key): Option<Row> {
    match k
    case TeamKey(n) => if n in s.teams then Some(TeamRow(s.teams[n])) else None
    case PlayerKey(p) => if p in s.players then Some(PlayerRow(s.players[p])) else None
    case StadiumKey(n) => if n in s.stadiums then Some(StadiumRow(s.stadiums[n])) else None
    case MatchKey(m) => if m in s.matches then Some(MatchRow(s.matches[m])) else None
  }

  /** No row of `s` is lost in `s'`: reconciliation never deletes. */
  ghost predicate Keeps(s: Store, s': Store) {
    && s.teams.Keys <= s'.teams.Keys
    && s.players.Keys <= s'.players.Keys
    && s.stadiums.Keys <= s'.stadiums.Keys
    && s.matches.Keys <= s'.matches.Keys
  }

  /** The outcome of `update_or_create`: the new table and whether the row
      was created. */
  datatype Upserted<T> = Upserted(table: T, created: bool)
}

=== FILE: extraction.dfy ===
/** What the scrapers read out of a fetched page. A page is the sequence of
    content blocks it holds, in document order; each block is one container
    element whose sub-elements have already been located, a missing
    sub-element being `None`. Parsing a block turns it into a record whose
    references to other rows are still plain names, or fails the way the
    scrapers' unguarded field accesses and conversions raise. */
module Extraction {
  import opened Wrappers
  import opened Text
  import opened Entities

  /** The CSS class of a container element. */
  datatype Container = TeamContainer | PlayerContainer | MatchContainer | StadiumContainer

  datatype Block =
    | TeamBlock(name: Option<string>, shortName: Option<string>, logoSrc: Option<string>)
    | PlayerBlock(name: Option<string>, team: Option<string>, role: Option<string>)
    | MatchBlock(
        number: Option<string>, season: Option<string>, date: Option<string>, time: Option<string>,
        home: Option<string>, away: Option<string>, venue: Option<string>)
    | StadiumBlock(name: Option<string>, city: Option<string>, country: Option<string>, capacity: Option<string>)

  type Document = seq<Block>

  function ClassOf(b: Block): Container {
    match b
    case TeamBlock(_, _, _) => TeamContainer
    case PlayerBlock(_, _, _) => PlayerContainer
    case MatchBlock(_, _, _, _, _, _, _) => MatchContainer
    case StadiumBlock(_, _, _, _) => StadiumContainer
  }

  /** `soup.select('.<class>')`: the containers of one class, in document
      order (`SelectAppend` and `SelectOne` pin the order and the
      multiplicity). */
  function Select(doc: Document, c: Container): (r: Document)
    ensures forall i :: 0 <= i < |r| ==> ClassOf(r[i]) == c
    ensures forall b :: b in doc && ClassOf(b) == c <==> b in r
    ensures |r| <= |doc|
  {
    if |doc| == 0 then []
    else if ClassOf(doc[0]) == c then [doc[0]] + Select(doc[1..], c)
    else Select(doc[1..], c)
  }

  /** The failures a block can raise. */
  datatype ScrapeError =
    | MissingElement(selector: string)  // `.text` of a `select_one` that found nothing
    | MissingImage(selector: string)    // `['src']` of a `select_one` that found nothing
    | NoSuchElement(selector: string)   // the browser's `find_element` found nothing
    | NotAnInteger(text: string)
    | NoHashMark(text: string)
    | BadDate(message: string)          // `strptime`'s own message
    | BadTime(message: string)

  /** The text of the exception, as it lands in the job's error message. */
  function Describe(e: ScrapeError): string {
    match e
    case MissingElement(_) => "'NoneType' object has no attribute 'text'"
    case MissingImage(_) => "'NoneType' object is not subscriptable"
    case NoSuchElement(sel) =>
      "Message: no such element: Unable to locate element: {\"method\":\"css selector\",\"selector\":\"" + sel + "\"}\n"
    case NotAnInteger(t) => "invalid literal for int() with base 10: " + Repr(t)
    case NoHashMark(_) => "list index out of range"
    case BadDate(m) => m
    case BadTime(m) => m
  }

  /** The date and time parsers (`strptime` with '%d %b %Y' and '%H:%M'),
      taken as given: each yields the value or the text of the `ValueError`
      it raises. */
  datatype Parsers = Parsers(date: string -> Result<Date, string>, time: string -> Result<Time, string>)

  /** A block turned into the fields the upsert needs. */
  datatype Record =
    | TeamRecord(name: string, shortName: string, logo: string)
    | PlayerRecord(name: string, team: string, role: Role)
    | MatchRecord(id: MatchId, date: Date, time: Time, home: string, away: string, venue: string)
    | StadiumRecord(name: string, city: string, country: string, capacity: Option<nat>)

  /** Accessing a sub-element that is not there raises `missing`. */
  function Need(field: Option<string>, missing: ScrapeError): (r: Result<string, ScrapeError>)
    ensures r.Success? <==> field.Some?
    ensures r.Success? ==> r.value == field.value
    ensures r.Failure? ==> r.error == missing
  {
    match field
    case Some(t) => Success(t)
    case None => Failure(missing)
  }

  /** `int(text)`. */
  function ParseInt(text: string): (r: Result<nat, ScrapeError>)
    ensures r.Success? <==> |text| > 0 && AllDigits(text)
    ensures r.Failure? ==> r.error == NotAnInteger(text)
  {
    match ParseNat(text)
    case Some(n) => Success(n)
    case None => Failure(NotAnInteger(text))
  }

  /** `int(text.replace(',', '')) if text else None`: thousands separators
      are dropped; empty text is no capacity rather than an error. */
  function ParseCapacity(text: string): (r: Result<Option<nat>, ScrapeError>)
    ensures text == "" ==> r == Success(None)
    ensures text != "" ==> (r.Success? <==> ParseNat(Without(text, ',')).Some?)
    ensures text != "" && r.Success? ==> r.value.Some?
    ensures r.Failure? ==> r.error == NotAnInteger(Without(text, ','))
  {
    if text == "" then Success(None)
    else
      var n :- ParseInt(Without(text, ','));
      Success(Some(n))
  }

  /** `int(text.split('#')[1])`: the number between the first '#' and the
      next '#' or the end of the text. */
  function ParseMatchNumber(text: string): (r: Result<nat, ScrapeError>)
    ensures r == Failure(NoHashMark(text)) <==> '#' !in text
    ensures r.Success? ==> '#' in text
  {
    match SecondPiece(text, '#')
    case None => Failure(NoHashMark(text))
    case Some(piece) => ParseInt(piece)
  }

  function DateOf(p: Parsers, text: string): Result<Date, ScrapeError> {
    match p.date(text)
    case Success(d) => Success(d)
    case Failure(m) => Failure(BadDate(m))
  }

  function TimeOf(p: Parsers, text: string): Result<Time, ScrapeError> {
    match p.time(text)
    case Success(t) => Success(t)
    case Failure(m) => Failure(BadTime(m))
  }

  /** The lookup from role label to role code; a label outside the table is
      taken as a batsman. */
  function RoleOf(shown: string): (r: Role)
    ensures RoleLabel(r) == shown || (r == BAT && forall c :: RoleLabel(c) != shown)
  {
    assert forall c :: RoleLabel(c) in {"Batsman", "Bowler", "All-Rounder", "Wicket Keeper"};
    if shown == "Batsman" then BAT
    else if shown == "Bowler" then BWL
    else if shown == "All-Rounder" then AR
    else if shown == "Wicket Keeper" then WK
    else BAT
  }

  /** The first stage of reading a match: its number, then its season. */
  function MatchIdOf(number: Option<string>, season: Option<string>): Result<MatchId, ScrapeError> {
    var numberText :- Need(number, MissingElement(".match-number"));
    var matchNumber :- ParseMatchNumber(numberText);
    var seasonText :- Need(season, MissingElement(".season"));
    var seasonValue :- ParseInt(seasonText);
    Success(MatchId(matchNumber, seasonValue))
  }

  /** The second stage: both texts are read before either is parsed. */
  function KickOff(date: Option<string>, time: Option<string>, p: Parsers): Result<(Date, Time), ScrapeError> {
    var dateText :- Need(date, MissingElement(".match-date"));
    var timeText :- Need(time, MissingElement(".match-time"));
    var d :- DateOf(p, dateText);
    var t :- TimeOf(p, timeText);
    Success((d, t))
  }

  /** The last stage: the two team names and the venue name. */
  function Sides(home: Option<string>, away: Option<string>, venue: Option<string>)
    : Result<(string, string, string), ScrapeError>
  {
    var h :- Need(home, MissingElement(".team-home"));
    var a :- Need(away, MissingElement(".team-away"));
    var v :- Need(venue, MissingElement(".venue"));
    Success((h, a, v))
  }

  /** Reading a block, field by field, in the order the scrapers read them:
      the first missing or malformed field is the error reported
      (`ParseFailsAtFirstCheck`, `ParseReads`). */
  function Parse(b: Block, p: Parsers): (r: Result<Record, ScrapeError>)
  {
    match b
    case TeamBlock(name, shortName, logo) =>
      var n :- Need(name, MissingElement(".team-name"));
      var s :- Need(shortName, MissingElement(".team-short-name"));
      var l :- Need(logo, MissingImage(".team-logo img"));
      Success(TeamRecord(n, s, l))
    case PlayerBlock(name, team, role) =>
      var n :- Need(name, NoSuchElement(".player-name"));
      var t :- Need(team, NoSuchElement(".player-team"));
      var roleText :- Need(role, NoSuchElement(".player-role"));
      Success(PlayerRecord(n, t, RoleOf(roleText)))
    case MatchBlock(number, season, date, time, home, away, venue) =>
      var id :- MatchIdOf(number, season);
      var when :- KickOff(date, time, p);
      var sides :- Sides(home, away, venue);
      Success(MatchRecord(id, when.0, when.1, sides.0, sides.1, sides.2))
    case StadiumBlock(name, city, country, capacity) =>
      var n :- Need(name, MissingElement(".stadium-name"));
      var c :- Need(city, MissingElement(".stadium-city"));
      var k :- Need(country, MissingElement(".stadium-country"));
      var capText :- Need(capacity, MissingElement(".stadium-capacity"));
      var cap :- ParseCapacity(capText);
      Success(StadiumRecord(n, c, k, cap))
  }

  // ---------------------------------------------------------------------
  // Properties of selection

  /** Selecting from two parts of a page is selecting from each, in order. */
  lemma {:induction false} SelectAppend(a: Document, b: Document, c: Container)
    ensures Select(a + b, c) == Select(a, c) + Select(b, c)
  {
    if |a| > 0 {
      assert (a + b)[1..] == a[1..] + b;
      SelectAppend(a[1..], b, c);
    } else {
      assert a + b == b;
    }
  }

  /** One container is selected exactly when it has the class. */
  lemma SelectOne(x: Block, c: Container)
    ensures Select([x], c) == if ClassOf(x) == c then [x] else []
  {
  }

  // ---------------------------------------------------------------------
  // Properties of reading a block

  /** The error a missing field raises, if it is missing. */
  function Missing(field: Option<string>, e: ScrapeError): Option<ScrapeError> {
    if field.None? then Some(e) else None
  }

  function ErrorOf<T>(r: Result<T, ScrapeError>): Option<ScrapeError> {
    if r.Failure? then Some(r.error) else None
  }

  /** Every check a block goes through, in the order the scraper performs
      them, each with the error it raises judged on its own: a conversion
      is judged only when its field is there. */
  function Checks(b: Block, p: Parsers): seq<Option<ScrapeError>> {
    match b
    case TeamBlock(name, shortName, logo) =>
      [ Missing(name, MissingElement(".team-name")),
        Missing(shortName, MissingElement(".team-short-name")),
        Missing(logo, MissingImage(".team-logo img")) ]
    case PlayerBlock(name, team, role) =>
      [ Missing(name, NoSuchElement(".player-name")),
        Missing(team, NoSuchElement(".player-team")),
        Missing(role, NoSuchElement(".player-role")) ]
    case MatchBlock(number, season, date, time, home, away, venue) =>
      IdChecks(number, season) + (KickOffChecks(date, time, p) + SideChecks(home, away, venue))
    case StadiumBlock(name, city, country, capacity) =>
      [ Missing(name, MissingElement(".stadium-name")),
        Missing(city, MissingElement(".stadium-city")),
        Missing(country, MissingElement(".stadium-country")),
        Missing(capacity, MissingElement(".stadium-capacity")),
        if capacity.Some? then ErrorOf(ParseCapacity(capacity.value)) else None ]
  }

  function IdChecks(number: Option<string>, season: Option<string>): seq<Option<ScrapeError>> {
    [ Missing(number, MissingElement(".match-number")),
      if number.Some? then ErrorOf(ParseMatchNumber(number.value)) else None,
      Missing(season, MissingElement(".season")),
      if season.Some? then ErrorOf(ParseInt(season.value)) else None ]
  }

  function KickOffChecks(date: Option<string>, time: Option<string>, p: Parsers): seq<Option<ScrapeError>> {
    [ Missing(date, MissingElement(".match-date")),
      Missing(time, MissingElement(".match-time")),
      if date.Some? then ErrorOf(DateOf(p, date.value)) else None,
      if time.Some? then ErrorOf(TimeOf(p, time.value)) else None ]
  }

  function SideChecks(home: Option<string>, away: Option<string>, venue: Option<string>): seq<Option<ScrapeError>> {
    [ Missing(home, MissingElement(".team-home")),
      Missing(away, MissingElement(".team-away")),
      Missing(venue, MissingElement(".venue")) ]
  }

  /** The position of the first failing check; past the end when none
      fails. */
  function FirstFailing(checks: seq<Option<ScrapeError>>): (i: nat)
    ensures i <= |checks|
    ensures forall j :: 0 <= j < i ==> checks[j].None?
    ensures i < |checks| ==> checks[i].Some?
  {
    if |checks| == 0 then 0
    else if checks[0].Some? then 0
    else 1 + FirstFailing(checks[1..])
  }

  /** A block fails to read exactly when one of its checks fails, and the
      error reported is that of the first failing check. */
  lemma ParseFailsAtFirstCheck(b: Block, p: Parsers)
    ensures var c := Checks(b, p);
      Parse(b, p).Failure? <==> FirstFailing(c) < |c|
    ensures var c := Checks(b, p);
      Parse(b, p).Failure? ==> FirstFailing(c) < |c| && c[FirstFailing(c)] == Some(Parse(b, p).error)
  {
    match b
    case TeamBlock(_, _, _) => TeamFailsAtFirstCheck(b, p);
    case PlayerBlock(_, _, _) => PlayerFailsAtFirstCheck(b, p);
    case MatchBlock(_, _, _, _, _, _, _) => MatchFailsAtFirstCheck(b, p);
    case StadiumBlock(_, _, _, _) => StadiumFailsAtFirstCheck(b, p);
  }

  /** A read stops exactly at the first failing of the checks `c`, with that
      check's error. */
  predicate StopsAt<T>(r: Result<T, ScrapeError>, c: seq<Option<ScrapeError>>) {
    && (r.Failure? <==> FirstFailing(c) < |c|)
    && (r.Failure? ==> FirstFailing(c) < |c| && c[FirstFailing(c)] == Some(r.error))
  }

  predicate FailsAtFirstCheck(b: Block, p: Parsers) {
    StopsAt(Parse(b, p), Checks(b, p))
  }

  lemma TeamFailsAtFirstCheck(b: Block, p: Parsers)
    requires b.TeamBlock?
    ensures FailsAtFirstCheck(b, p)
  {
    var c := Checks(b, p);
    if b.name.None? { FirstFailingAt(c, 0); }
    else if b.shortName.None? { FirstFailingAt(c, 1); }
    else if b.logoSrc.None? { FirstFailingAt(c, 2); }
  }

  lemma PlayerFailsAtFirstCheck(b: Block, p: Parsers)
    requires b.PlayerBlock?
    ensures FailsAtFirstCheck(b, p)
  {
    var c := Checks(b, p);
    if b.name.None? { FirstFailingAt(c, 0); }
    else if b.team.None? { FirstFailingAt(c, 1); }
    else if b.role.None? { FirstFailingAt(c, 2); }
  }

  lemma MatchFailsAtFirstCheck(b: Block, p: Parsers)
    requires b.MatchBlock?
    ensures FailsAtFirstCheck(b, p)
  {
    var idChecks := IdChecks(b.number, b.season);
    var kickOffChecks := KickOffChecks(b.date, b.time, p);
    var sideChecks := SideChecks(b.home, b.away, b.venue);
    IdStopsAtFirstCheck(b.number, b.season);
    KickOffStopsAtFirstCheck(b.date, b.time, p);
    SidesStopAtFirstCheck(b.home, b.away, b.venue);
    var id := MatchIdOf(b.number, b.season);
    var when := KickOff(b.date, b.time, p);
    if id.Success? {
      StopsAtThen(when, kickOffChecks, Parse(b, p), sideChecks);
    }
    StopsAtThen(id, idChecks, Parse(b, p), kickOffChecks + sideChecks);
  }

  lemma IdStopsAtFirstCheck(number: Option<string>, season: Option<string>)
    ensures StopsAt(MatchIdOf(number, season), IdChecks(number, season))
  {
    var c := IdChecks(number, season);
    if number.None? { FirstFailingAt(c, 0); }
    else if ParseMatchNumber(number.value).Failure? { FirstFailingAt(c, 1); }
    else if season.None? { FirstFailingAt(c, 2); }
    else if ParseInt(season.value).Failure? { FirstFailingAt(c, 3); }
  }

  lemma KickOffStopsAtFirstCheck(date: Option<string>, time: Option<string>, p: Parsers)
    ensures StopsAt(KickOff(date, time, p), KickOffChecks(date, time, p))
  {
    var c := KickOffChecks(date, time, p);
    if date.None? { FirstFailingAt(c, 0); }
    else if time.None? { FirstFailingAt(c, 1); }
    else if DateOf(p, date.value).Failure? { FirstFailingAt(c, 2); }
    else if TimeOf(p, time.value).Failure? { FirstFailingAt(c, 3); }
  }

  lemma SidesStopAtFirstCheck(home: Option<string>, away: Option<string>, venue: Option<string>)
    ensures StopsAt(Sides(home, away, venue), SideChecks(home, away, venue))
  {
    var c := SideChecks(home, away, venue);
    if home.None? { FirstFailingAt(c, 0); }
    else if away.None? { FirstFailingAt(c, 1); }
    else if venue.None? { FirstFailingAt(c, 2); }
  }

  /** Reading in sequence: a first read that stops at the first failing of
      its checks, followed (when it succeeds) by the rest of the read
      stopping at the first failing of the remaining checks, stops at the
      first failing check of the whole. */
  lemma StopsAtThen<T, U>(r1: Result<T, ScrapeError>, c1: seq<Option<ScrapeError>>,
                          r: Result<U, ScrapeError>, c2: seq<Option<ScrapeError>>)
    requires StopsAt(r1, c1)
    requires r1.Failure? ==> r == Failure(r1.error)
    requires r1.Success? ==> StopsAt(r, c2)
    ensures StopsAt(r, c1 + c2)
  {
    FirstFailingAppend(c1, c2);
    if r1.Success? {
      var j := FirstFailing(c2);
      if j < |c2| {
        assert (c1 + c2)[|c1| + j] == c2[j];
      }
    }
  }

  /** The first failing check of two sequences of checks run one after the
      other. */
  lemma {:induction false} FirstFailingAppend(a: seq<Option<ScrapeError>>, b: seq<Option<ScrapeError>>)
    ensures FirstFailing(a + b) == if FirstFailing(a) < |a| then FirstFailing(a) else |a| + FirstFailing(b)
  {
    if |a| > 0 {
      assert (a + b)[1..] == a[1..] + b;
      FirstFailingAppend(a[1..], b);
    } else {
      assert a + b == b;
    }
  }

  lemma StadiumFailsAtFirstCheck(b: Block, p: Parsers)
    requires b.StadiumBlock?
    ensures FailsAtFirstCheck(b, p)
  {
    var c := Checks(b, p);
    if b.name.None? { FirstFailingAt(c, 0); }
    else if b.city.None? { FirstFailingAt(c, 1); }
    else if b.country.None? { FirstFailingAt(c, 2); }
    else if b.capacity.None? { FirstFailingAt(c, 3); }
    else if ParseCapacity(b.capacity.value).Failure? { FirstFailingAt(c, 4); }
  }

  /** A failing check preceded only by passing ones is the first failing
      one. */
  lemma FirstFailingAt(c: seq<Option<ScrapeError>>, k: nat)
    requires k < |c| && c[k].Some?
    requires forall j :: 0 <= j < k ==> c[j].None?
    ensures FirstFailing(c) == k
  {
  }

  /** When a block reads, and what it reads into: every field present (and,
      for a match or a stadium, every conversion succeeding), the record
      carrying the field texts. */
  lemma ParseReads(b: Block, p: Parsers)
    ensures var r := Parse(b, p);
      b.TeamBlock? ==>
        && (r.Success? <==> b.name.Some? && b.shortName.Some? && b.logoSrc.Some?)
        && (r.Success? ==> r.value == TeamRecord(b.name.value, b.shortName.value, b.logoSrc.value))
    ensures var r := Parse(b, p);
      b.PlayerBlock? ==>
        && (r.Success? <==> b.name.Some? && b.team.Some? && b.role.Some?)
        && (r.Success? ==> r.value == PlayerRecord(b.name.value, b.team.value, RoleOf(b.role.value)))
    ensures var r := Parse(b, p);
      b.StadiumBlock? ==>
        && (r.Success? <==>
              && b.name.Some? && b.city.Some? && b.country.Some? && b.capacity.Some?
              && ParseCapacity(b.capacity.value).Success?)
        && (r.Success? ==> r.value == StadiumRecord(b.name.value, b.city.value, b.country.value,
                                                     ParseCapacity(b.capacity.value).value))
    ensures var r := Parse(b, p);
      b.MatchBlock? ==>
        && (r.Success? <==>
              && b.number.Some? && b.season.Some? && b.date.Some? && b.time.Some?
              && b.home.Some? && b.away.Some? && b.venue.Some?
              && ParseMatchNumber(b.number.value).Success? && ParseInt(b.season.value).Success?
              && p.date(b.date.value).Success? && p.time(b.time.value).Success?)
        && (r.Success? ==>
              r.value == MatchRecord(
                MatchId(ParseMatchNumber(b.number.value).value, ParseInt(b.season.value).value),
                p.date(b.date.value).value, p.time(b.time.value).value,
                b.home.value, b.away.value, b.venue.value))
  {
  }

  // ---------------------------------------------------------------------
  // Properties of the field parsers

  /** Every role code is recovered from its own label. */
  lemma RoleOfLabel(r: Role)
    ensures RoleOf(RoleLabel(r)) == r
  {
  }

  /** Capacity round trip: a capacity printed as plain digits parses back. */
  lemma {:induction false} CapacityOfDigits(n: nat)
    ensures ParseCapacity(NatToString(n)) == Success(Some(n))
  {
    ParseNatToString(n);
  }

  /** A thousands separator anywhere in the capacity text changes nothing. */
  lemma {:induction false} CapacityIgnoresSeparator(a: string, b: string)
    requires a + b != ""
    ensures ParseCapacity(a + "," + b) == ParseCapacity(a + b)
  {
    var x := a + "," + b;
    assert x == a + ("," + b);
    WithoutAppend(a, "," + b, ',');
    WithoutAppend(",", b, ',');
    assert Without(",", ',') == "";
    assert Without("," + b, ',') == Without(b, ',');
    WithoutAppend(a, b, ',');
    assert Without(x, ',') == Without(a + b, ',');
  }

  /** A capacity written with a thousands separator, and an empty one. */
  lemma CapacityExample()
    ensures ParseCapacity("54,000") == Success(Some(54000))
    ensures ParseCapacity("") == Success(None)
  {
    CapacityIgnoresSeparator("54", "000");
    assert "54" + "," + "000" == "54,000";
    assert "54" + "000" == "54000";
    PrintedCapacity();
    CapacityOfDigits(54000);
  }

  lemma PrintedCapacity()
    ensures NatToString(54000) == "54000"
  {
    assert NatToString(54) == "54";
    assert NatToString(5400) == NatToString(54) + "00";
  }

  /** A match number written after the first '#' (and before any further
      '#') parses back. */
  lemma {:induction false} MatchNumberOf(prefix: string, n: nat, suffix: string)
    requires '#' !in prefix
    requires suffix == [] || suffix[0] == '#'
    ensures ParseMatchNumber(prefix + "#" + NatToString(n) + suffix) == Success(n)
  {
    var digits := NatToString(n);
    assert forall i :: 0 <= i < |digits| ==> digits[i] != '#';
    SecondPieceOf(prefix, digits, suffix, '#');
    ParseNatToString(n);
  }
}

=== FILE: ledger.dfy ===
/** The scraper bookkeeping tables (ScraperJob, ScraperLog, DataSource,
    ScraperConfig) and the whole persistent state a job run touches, as one
    immutable value. Time is a natural-number clock inside the state: every
    reading of "now" (a job timestamp, a log row's auto-added timestamp)
    takes the current value and advances it by one. */
module Ledger {
  import opened Wrappers
  import opened Entities

  /** Job types, named after their display labels. */
  datatype JobType = TeamData | PlayerData | MatchData | StadiumData | LiveData

  /** The stored code of a job type, as the command line spells it. */
  function TypeCode(t: JobType): string {
    match t
    case TeamData => "TEAM"
    case PlayerData => "PLAYER"
    case MatchData => "MATCH"
    case StadiumData => "STADIUM"
    case LiveData => "LIVE"
  }

  datatype JobStatus = Pending | Running | Completed | Failed

  datatype Level = Info | Warning | Error

  datatype ScraperJob = ScraperJob(
    jobType: JobType,
    url: string,
    status: JobStatus,
    scheduledTime: nat,
    startTime: Option<nat>,
    endTime: Option<nat>,
    errorMessage: Option<string>)

  /** A ScraperLog row; `job` is the id of the job it belongs to. */
  datatype LogEntry = LogEntry(job: int, timestamp: nat, level: Level, message: string)

  datatype Frequency = Hourly | Daily | Weekly | Monthly | MatchDay

  /** A DataSource row; its name is the key it is stored under. */
  datatype DataSource = DataSource(baseUrl: string, description: Option<string>, isActive: bool)

  /** A ScraperConfig row; `dataSource` is the name of its DataSource. The
      selector payloads are configuration the scrapers never read. */
  datatype ScraperConfig = ScraperConfig(
    dataSource: string,
    scraperType: JobType,
    urlPattern: string,
    frequency: Frequency,
    isActive: bool,
    lastRun: Option<nat>,
    nextRun: Option<nat>)

  datatype World = World(
    jobs: map<int, ScraperJob>,
    nextJobId: int,
    logs: seq<LogEntry>,
    sources: map<string, DataSource>,
    configs: map<int, ScraperConfig>,
    store: Store,
    clock: nat)

  /** A job as `ScraperJob.objects.create` makes it: status defaults to
      PENDING and nothing has run yet. */
  function NewJob(t: JobType, url: string, now: nat): (j: ScraperJob)
    ensures j.status == Pending && j.jobType == t && j.url == url
    ensures j.startTime.None? && j.endTime.None? && j.errorMessage.None?
  {
    ScraperJob(t, url, Pending, now, None, None, None)
  }

  /** Ids are handed out by a sequence that starts at 1 and never goes back. */
  ghost predicate IdsIssued(w: World) {
    && 1 <= w.nextJobId
    && forall id :: id in w.jobs ==> 1 <= id < w.nextJobId
  }

  /** Rows in strictly increasing time order. */
  ghost predicate Chronological(logs: seq<LogEntry>) {
    forall i, j :: 0 <= i < j < |logs| ==> logs[i].timestamp < logs[j].timestamp
  }

  /** Log rows were written in clock order, all before the present. */
  ghost predicate LogChronological(w: World) {
    && Chronological(w.logs)
    && (forall i :: 0 <= i < |w.logs| ==> w.logs[i].timestamp < w.clock)
  }

  ghost predicate Valid(w: World) {
    IdsIssued(w) && LogChronological(w)
  }

  /** `ScraperLog.objects.create(job=..., level=..., message=...)`: one row,
      stamped with the current time, appended after every earlier row. */
  function Append(w: World, job: int, level: Level, message: string): (w': World)
    ensures w'.logs == w.logs + [LogEntry(job, w.clock, level, message)]
    ensures LogsOnlyFor(w, w', job)
    ensures w'.clock == w.clock + 1
    ensures w'.jobs == w.jobs && w'.nextJobId == w.nextJobId && w'.store == w.store
    ensures w'.sources == w.sources && w'.configs == w.configs
    ensures Valid(w) ==> Valid(w')
  {
    w.(logs := w.logs + [LogEntry(job, w.clock, level, message)], clock := w.clock + 1)
  }

  /** The rows `Append` writes for `texts`, one after another from time
      `t` on. */
  function Stamped(job: int, t: nat, level: Level, texts: seq<string>): (r: seq<LogEntry>)
    ensures |r| == |texts|
    ensures forall i :: 0 <= i < |r| ==> r[i] == LogEntry(job, t + i, level, texts[i])
  {
    seq(|texts|, i requires 0 <= i < |texts| => LogEntry(job, t + i, level, texts[i]))
  }

  /** Writing two batches of rows is writing them as one batch. */
  lemma StampedAppend(job: int, t: nat, level: Level, a: seq<string>, b: seq<string>)
    ensures Stamped(job, t, level, a + b) == Stamped(job, t, level, a) + Stamped(job, t + |a|, level, b)
  {
  }

  /** `ScraperJob.objects.create(job_type=t, url=url, status='PENDING',
      scheduled_time=now)`: the next id from the sequence names a new
      PENDING job scheduled now; no other row changes. */
  function Enqueue(w: World, t: JobType, url: string): (r: (World, int))
    ensures r.1 == w.nextJobId && r.0.nextJobId == r.1 + 1
    ensures r.0.jobs == w.jobs[r.1 := NewJob(t, url, w.clock)]
    ensures r.0.jobs[r.1].scheduledTime == w.clock && r.0.clock > w.clock
    ensures r.0.logs == w.logs && r.0.store == w.store
    ensures r.0.sources == w.sources && r.0.configs == w.configs
    ensures Valid(w) ==> r.1 !in w.jobs && r.1 != 0 && Valid(r.0)
  {
    var id := w.nextJobId;
    (w.(jobs := w.jobs[id := NewJob(t, url, w.clock)], nextJobId := id + 1, clock := w.clock + 1), id)
  }

  /** Between `w` and `w'` only the domain store, the log and the clock
      moved: rows were added or updated, none lost, and the log grew at its
      end. */
  ghost predicate Reconciles(w: World, w': World) {
    && w'.jobs == w.jobs
    && w'.nextJobId == w.nextJobId
    && w'.sources == w.sources
    && w'.configs == w.configs
    && w.logs <= w'.logs
    && w.clock <= w'.clock
    && Keeps(w.store, w'.store)
  }

  /** Every row appended between `w` and `w'` belongs to job `id`. */
  ghost predicate LogsOnlyFor(w: World, w': World, id: int) {
    && w.logs <= w'.logs
    && forall i :: |w.logs| <= i < |w'.logs| ==> w'.logs[i].job == id
  }

  lemma LogsOnlyForTransitive(w0: World, w1: World, w2: World, id: int)
    requires LogsOnlyFor(w0, w1, id) && LogsOnlyFor(w1, w2, id)
    ensures LogsOnlyFor(w0, w2, id)
  {
  }

  lemma ReconcilesTransitive(w0: World, w1: World, w2: World)
    requires Reconciles(w0, w1) && Reconciles(w1, w2)
    ensures Reconciles(w0, w2)
  {
  }
}

=== FILE: reconcile.dfy ===
/** Reconciliation of one extracted record against the store: placeholder
    rows for unresolved team and venue names, then `update_or_create` by
    natural key, then one INFO row in the job's log saying whether the row
    was created or updated. Nothing is ever deleted. */
module Reconciliation {
  import opened Wrappers
  import opened Text
  import opened Entities
  import opened Ledger
  import opened Extraction

  // ---------------------------------------------------------------------
  // Placeholders

  /** The short name given to a placeholder team: `name[:3].upper()`. */
  function ShortCode(name: string): (code: string)
    ensures |code| == if |name| < 3 then |name| else 3
    ensures NoLower(code)
    ensures forall i :: 0 <= i < |code| ==> code[i] == Upper(name[i])
  {
    UpperAll(name[..if |name| < 3 then |name| else 3])
  }

  function PlaceholderTeam(name: string): Team {
    Team(ShortCode(name), None, None, None)
  }

  function PlaceholderStadium(): Stadium {
    Stadium("Unknown", "India", None, None)
  }

  function MissingTeamWarning(name: string): string {
    "Team " + name + " does not exist, creating placeholder"
  }

  function MissingStadiumWarning(name: string): string {
    "Stadium " + name + " does not exist, creating placeholder"
  }

  /** The store after looking team `name` up: unchanged if it exists,
      otherwise with a placeholder team of that name. */
  function WithTeam(s: Store, name: string): Store {
    if name in s.teams then s else s.(teams := s.teams[name := PlaceholderTeam(name)])
  }

  /** The store after looking venue `name` up: unchanged if it exists,
      otherwise with a placeholder stadium of that name. */
  function WithStadium(s: Store, name: string): Store {
    if name in s.stadiums then s else s.(stadiums := s.stadiums[name := PlaceholderStadium()])
  }

  /** A name a record refers to: a team, or the venue of a match. */
  datatype Ref = TeamRef(name: string) | VenueRef(name: string)

  /** The store after looking `r` up. */
  function WithRef(s: Store, r: Ref): Store {
    match r
    case TeamRef(n) => WithTeam(s, n)
    case VenueRef(n) => WithStadium(s, n)
  }

  predicate Exists(s: Store, r: Ref) {
    match r
    case TeamRef(n) => n in s.teams
    case VenueRef(n) => n in s.stadiums
  }

  function WarningFor(r: Ref): string {
    match r
    case TeamRef(n) => MissingTeamWarning(n)
    case VenueRef(n) => MissingStadiumWarning(n)
  }

  /** The WARNING texts looking `refs` up in turn writes: one for each name
      not there yet when its turn comes (a name created earlier in the same
      turn, such as a home team that is also the away team, is not warned
      about twice). */
  function Warnings(s: Store, refs: seq<Ref>): seq<string>
    decreases |refs|
  {
    if |refs| == 0 then []
    else
      (if Exists(s, refs[0]) then [] else [WarningFor(refs[0])])
      + Warnings(WithRef(s, refs[0]), refs[1..])
  }

  /** Between `w` and `w'`, exactly the WARNING rows `texts` were written
      for the job, each at its own reading of the clock. */
  ghost predicate Warned(w: World, w': World, job: int, texts: seq<string>) {
    && w'.logs == w.logs + Stamped(job, w.clock, Warning, texts)
    && w'.clock == w.clock + |texts|
  }

  lemma {:induction false} WarnedThen(w0: World, w1: World, w2: World, job: int, a: seq<string>, b: seq<string>)
    requires Warned(w0, w1, job, a) && Warned(w1, w2, job, b)
    ensures Warned(w0, w2, job, a + b)
  {
    StampedAppend(job, w0.clock, Warning, a, b);
  }

  /** When every name is already there, no lookup warns. */
  lemma {:induction false} WarningsNone(s: Store, refs: seq<Ref>)
    requires forall i :: 0 <= i < |refs| ==> Exists(s, refs[i])
    ensures Warnings(s, refs) == []
    decreases |refs|
  {
    if |refs| > 0 {
      assert WithRef(s, refs[0]) == s;
      WarningsNone(s, refs[1..]);
    }
  }

  /** Looking up a first name, then the rest. */
  lemma WarningsCons(s: Store, r: Ref, rest: seq<Ref>)
    ensures Warnings(s, [r] + rest) == Warnings(s, [r]) + Warnings(WithRef(s, r), rest)
  {
    assert ([r] + rest)[1..] == rest;
    assert [r][1..] == [];
  }

  /** `Team.objects.get(name=name)`, falling back to creating a placeholder
      team (after a WARNING row) when there is none. */
  function ResolveTeam(w: World, job: int, name: string): (w': World)
    ensures name in w'.store.teams
    ensures name in w.store.teams ==> w' == w
    ensures name !in w.store.teams ==>
      && w'.store.teams == w.store.teams[name := PlaceholderTeam(name)]
      && w'.logs == w.logs + [LogEntry(job, w.clock, Warning, MissingTeamWarning(name))]
    ensures w'.store == WithTeam(w.store, name)
    ensures Warned(w, w', job, Warnings(w.store, [TeamRef(name)]))
    ensures LogsOnlyFor(w, w', job)
    ensures Reconciles(w, w')
    ensures Valid(w) ==> Valid(w')
  {
    if name in w.store.teams then w
    else
      var w1 := Append(w, job, Warning, MissingTeamWarning(name));
      w1.(store := WithTeam(w1.store, name))
  }

  /** `Stadium.objects.get(name=name)`, falling back to creating a
      placeholder stadium (after a WARNING row) when there is none. */
  function ResolveStadium(w: World, job: int, name: string): (w': World)
    ensures name in w'.store.stadiums
    ensures name in w.store.stadiums ==> w' == w
    ensures name !in w.store.stadiums ==>
      && w'.store.stadiums == w.store.stadiums[name := PlaceholderStadium()]
      && w'.logs == w.logs + [LogEntry(job, w.clock, Warning, MissingStadiumWarning(name))]
    ensures w'.store == WithStadium(w.store, name)
    ensures Warned(w, w', job, Warnings(w.store, [VenueRef(name)]))
    ensures LogsOnlyFor(w, w', job)
    ensures Reconciles(w, w')
    ensures Valid(w) ==> Valid(w')
  {
    if name in w.store.stadiums then w
    else
      var w1 := Append(w, job, Warning, MissingStadiumWarning(name));
      w1.(store := WithStadium(w1.store, name))
  }

  // ---------------------------------------------------------------------
  // update_or_create, one per table: the lookup fields select the row, the
  // `defaults` fields are written, every other field is left alone (or
  // left empty on a new row), and no other row changes.

  function UpsertTeam(s: Store, name: string, shortName: string, logo: Option<string>): (r: Upserted<Store>)
    ensures r.created <==> name !in s.teams
    ensures r.table.teams.Keys == s.teams.Keys + {name}
    ensures r.table.teams[name].shortName == shortName && r.table.teams[name].logo == logo
    ensures name in s.teams ==>
      r.table.teams[name].homeVenue == s.teams[name].homeVenue && r.table.teams[name].captain == s.teams[name].captain
    ensures name !in s.teams ==> r.table.teams[name].homeVenue.None? && r.table.teams[name].captain.None?
    ensures forall n :: n in s.teams && n != name ==> r.table.teams[n] == s.teams[n]
    ensures r.table.players == s.players && r.table.stadiums == s.stadiums && r.table.matches == s.matches
  {
    if name in s.teams then
      Upserted(s.(teams := s.teams[name := s.teams[name].(shortName := shortName, logo := logo)]), false)
    else
      Upserted(s.(teams := s.teams[name := Team(shortName, logo, None, None)]), true)
  }

  function UpsertPlayer(s: Store, id: PlayerId, role: Role): (r: Upserted<Store>)
    ensures r.created <==> id !in s.players
    ensures r.table.players.Keys == s.players.Keys + {id}
    ensures r.table.players[id].role == role && r.table.players[id].nationality == "Unknown"
    ensures id in s.players ==>
      var p, q := s.players[id], r.table.players[id];
      q.battingStyle == p.battingStyle && q.bowlingStyle == p.bowlingStyle
      && q.dateOfBirth == p.dateOfBirth && q.imageUrl == p.imageUrl
    ensures id !in s.players ==>
      var q := r.table.players[id];
      q.battingStyle.None? && q.bowlingStyle.None? && q.dateOfBirth.None? && q.imageUrl.None?
    ensures forall k :: k in s.players && k != id ==> r.table.players[k] == s.players[k]
    ensures r.table.teams == s.teams && r.table.stadiums == s.stadiums && r.table.matches == s.matches
  {
    if id in s.players then
      Upserted(s.(players := s.players[id := s.players[id].(role := role, nationality := "Unknown")]), false)
    else
      Upserted(s.(players := s.players[id := Player(role, None, None, "Unknown", None, None)]), true)
  }

  function UpsertStadium(s: Store, name: string, city: string, country: string, capacity: Option<nat>): (r: Upserted<Store>)
    ensures r.created <==> name !in s.stadiums
    ensures r.table.stadiums.Keys == s.stadiums.Keys + {name}
    ensures r.table.stadiums[name].city == city && r.table.stadiums[name].country == country
    ensures r.table.stadiums[name].capacity == capacity
    ensures name in s.stadiums ==> r.table.stadiums[name].pitchType == s.stadiums[name].pitchType
    ensures name !in s.stadiums ==> r.table.stadiums[name].pitchType.None?
    ensures forall n :: n in s.stadiums && n != name ==> r.table.stadiums[n] == s.stadiums[n]
    ensures r.table.teams == s.teams && r.table.players == s.players && r.table.matches == s.matches
  {
    if name in s.stadiums then
      Upserted(s.(stadiums := s.stadiums[name := s.stadiums[name].(city := city, country := country, capacity := capacity)]), false)
    else
      Upserted(s.(stadiums := s.stadiums[name := Stadium(city, country, capacity, None)]), true)
  }

  function UpsertMatch(s: Store, id: MatchId, date: Date, time: Time, home: string, away: string, venue: string): (r: Upserted<Store>)
    ensures r.created <==> id !in s.matches
    ensures r.table.matches.Keys == s.matches.Keys + {id}
    ensures var m := r.table.matches[id];
      m.date == date && m.time == time && m.home == home && m.away == away && m.venue == venue
      && m.status == Scheduled
    ensures id in s.matches ==> SameResult(s.matches[id], r.table.matches[id])
    ensures id !in s.matches ==> NoResult(r.table.matches[id])
    ensures forall k :: k in s.matches && k != id ==> r.table.matches[k] == s.matches[k]
    ensures r.table.teams == s.teams && r.table.players == s.players && r.table.stadiums == s.stadiums
  {
    if id in s.matches then
      var m := s.matches[id].(date := date, time := time, home := home, away := away, venue := venue, status := Scheduled);
      Upserted(s.(matches := s.matches[id := m]), false)
    else
      Upserted(s.(matches := s.matches[id := Match(date, time, home, away, venue, None, None, None, None, None, None, Scheduled)]), true)
  }

  /** The result columns of a match, which the scraper never writes. */
  predicate SameResult(m: Match, m': Match) {
    && m'.tossWinner == m.tossWinner && m'.tossDecision == m.tossDecision
    && m'.winner == m.winner && m'.winType == m.winType && m'.winMargin == m.winMargin
    && m'.playerOfMatch == m.playerOfMatch
  }

  predicate NoResult(m: Match) {
    && m.tossWinner.None? && m.tossDecision.None? && m.winner.None? && m.winType.None?
    && m.winMargin.None? && m.playerOfMatch.None?
  }

  // ---------------------------------------------------------------------
  // One record

  /** The row a record is upserted into. */
  function KeyOf(rec: Record): Key {
    match rec
    case TeamRecord(n, _, _) => TeamKey(n)
    case PlayerRecord(n, t, _) => PlayerKey(PlayerId(n, t))
    case MatchRecord(id, _, _, _, _, _) => MatchKey(id)
    case StadiumRecord(n, _, _, _) => StadiumKey(n)
  }

  /** The rows a record refers to by name. */
  function RefsOf(rec: Record): set<Key> {
    match rec
    case PlayerRecord(_, t, _) => {TeamKey(t)}
    case MatchRecord(_, _, _, h, a, v) => {TeamKey(h), TeamKey(a), StadiumKey(v)}
    case _ => {}
  }

  /** The row a missing reference is filled with. */
  function PlaceholderFor(k: Key): Option<Row> {
    match k
    case TeamKey(n) => Some(TeamRow(PlaceholderTeam(n)))
    case StadiumKey(_) => Some(StadiumRow(PlaceholderStadium()))
    case _ => None
  }

  /** `row` carries every field the record's upsert writes (its `defaults`). */
  predicate Reflects(row: Row, rec: Record) {
    match rec
    case TeamRecord(_, sn, logo) =>
      row.TeamRow? && row.team.shortName == sn && row.team.logo == Some(logo)
    case PlayerRecord(_, _, role) =>
      row.PlayerRow? && row.player.role == role && row.player.nationality == "Unknown"
    case MatchRecord(_, d, t, h, a, v) =>
      && row.MatchRow? && row.game.date == d && row.game.time == t
      && row.game.home == h && row.game.away == a && row.game.venue == v
      && row.game.status == Scheduled
    case StadiumRecord(_, c, k, cap) =>
      row.StadiumRow? && row.stadium.city == c && row.stadium.country == k && row.stadium.capacity == cap
  }

  /** The fields outside `defaults` are the same in `row'` as in `row`. */
  predicate KeepsUnwritten(row: Row, row': Row) {
    match row
    case TeamRow(t) =>
      row'.TeamRow? && row'.team.homeVenue == t.homeVenue && row'.team.captain == t.captain
    case PlayerRow(p) =>
      && row'.PlayerRow? && row'.player.battingStyle == p.battingStyle
      && row'.player.bowlingStyle == p.bowlingStyle && row'.player.dateOfBirth == p.dateOfBirth
      && row'.player.imageUrl == p.imageUrl
    case StadiumRow(s) => row'.StadiumRow? && row'.stadium.pitchType == s.pitchType
    case MatchRow(m) => row'.MatchRow? && SameResult(m, row'.game)
  }

  /** The fields outside `defaults` are empty, as on a freshly created row. */
  predicate Unwritten(row: Row) {
    match row
    case TeamRow(t) => t.homeVenue.None? && t.captain.None?
    case PlayerRow(p) =>
      p.battingStyle.None? && p.bowlingStyle.None? && p.dateOfBirth.None? && p.imageUrl.None?
    case StadiumRow(s) => s.pitchType.None?
    case MatchRow(m) => NoResult(m)
  }

  /** What reconciling `rec` does to the store, stated row by row: its own
      row exists and carries the record's fields, with the others kept (or
      empty when created); every reference resolves; every other existing
      row is unchanged; and the only other new rows are placeholders for the
      references. */
  ghost predicate Applied(s: Store, s': Store, rec: Record) {
    var k := KeyOf(rec);
    && Lookup(s', k).Some? && Reflects(Lookup(s', k).value, rec)
    && (Lookup(s, k).Some? ==> KeepsUnwritten(Lookup(s, k).value, Lookup(s', k).value))
    && (Lookup(s, k).None? ==> Unwritten(Lookup(s', k).value))
    && Resolved(s', RefsOf(rec))
    && (forall r :: Lookup(s, r).Some? && r != k ==> Lookup(s', r) == Lookup(s, r))
    && (forall r :: Lookup(s, r).None? && Lookup(s', r).Some? && r != k ==>
          r in RefsOf(rec) && Lookup(s', r) == PlaceholderFor(r))
  }

  ghost predicate Resolved(s: Store, refs: set<Key>) {
    forall r :: r in refs ==> Lookup(s, r).Some?
  }

  /** Between `s` and `s'` only placeholders for `refs` were added. */
  ghost predicate AddsPlaceholders(s: Store, s': Store, refs: set<Key>) {
    && (forall r :: Lookup(s, r).Some? ==> Lookup(s', r) == Lookup(s, r))
    && (forall r :: Lookup(s, r).None? && Lookup(s', r).Some? ==> r in refs && Lookup(s', r) == PlaceholderFor(r))
  }

  lemma AddsPlaceholdersTrans(s1: Store, s2: Store, s3: Store, a: set<Key>, b: set<Key>)
    requires AddsPlaceholders(s1, s2, a) && AddsPlaceholders(s2, s3, b)
    ensures AddsPlaceholders(s1, s3, a + b)
  {
  }

  lemma WithTeamAdded(s: Store, name: string)
    ensures AddsPlaceholders(s, WithTeam(s, name), {TeamKey(name)})
    ensures name in WithTeam(s, name).teams
  {
  }

  lemma WithStadiumAdded(s: Store, name: string)
    ensures AddsPlaceholders(s, WithStadium(s, name), {StadiumKey(name)})
    ensures name in WithStadium(s, name).stadiums
  {
  }

  /** The match scraper's three lookups add only placeholders for the two
      teams and the venue, and afterwards all three resolve. */
  lemma FixtureAdded(s: Store, home: string, away: string, venue: string)
    ensures var s' := WithStadium(WithTeam(WithTeam(s, home), away), venue);
      && AddsPlaceholders(s, s', {TeamKey(home), TeamKey(away), StadiumKey(venue)})
      && Resolved(s', {TeamKey(home), TeamKey(away), StadiumKey(venue)})
  {
    var s1 := WithTeam(s, home);
    var s2 := WithTeam(s1, away);
    var s3 := WithStadium(s2, venue);
    WithTeamAdded(s, home);
    WithTeamAdded(s1, away);
    WithStadiumAdded(s2, venue);
    AddsPlaceholdersTrans(s, s1, s2, {TeamKey(home)}, {TeamKey(away)});
    AddsPlaceholdersTrans(s, s2, s3, {TeamKey(home)} + {TeamKey(away)}, {StadiumKey(venue)});
    assert {TeamKey(home)} + {TeamKey(away)} + {StadiumKey(venue)} == {TeamKey(home), TeamKey(away), StadiumKey(venue)};
    assert home in s3.teams && away in s3.teams;
  }

  /** The store after the record's references were resolved, in the order
      the scrapers look them up (home team, away team, venue). */
  function Placeholders(s: Store, rec: Record): Store {
    match rec
    case PlayerRecord(_, team, _) => WithTeam(s, team)
    case MatchRecord(_, _, _, home, away, venue) => WithStadium(WithTeam(WithTeam(s, home), away), venue)
    case _ => s
  }

  /** Resolving a record's references adds only placeholders for them, and
      afterwards every reference resolves. */
  lemma PlaceholdersAdded(s: Store, rec: Record)
    ensures AddsPlaceholders(s, Placeholders(s, rec), RefsOf(rec))
    ensures Resolved(Placeholders(s, rec), RefsOf(rec))
  {
    match rec
    case PlayerRecord(_, team, _) =>
      WithTeamAdded(s, team);
    case MatchRecord(_, _, _, home, away, venue) =>
      FixtureAdded(s, home, away, venue);
    case _ =>
  }

  /** The names a record refers to, in the order the scrapers look them up
      (home team, away team, venue). */
  function LookupOrder(rec: Record): seq<Ref> {
    match rec
    case PlayerRecord(_, team, _) => [TeamRef(team)]
    case MatchRecord(_, _, _, home, away, venue) => [TeamRef(home), TeamRef(away), VenueRef(venue)]
    case _ => []
  }

  /** Resolves every name the record refers to. */
  function ResolveRefs(w: World, job: int, rec: Record): (w': World)
    ensures Warned(w, w', job, Warnings(w.store, LookupOrder(rec)))
    ensures LogsOnlyFor(w, w', job)
    ensures w'.store == Placeholders(w.store, rec)
    ensures Reconciles(w, w')
    ensures Valid(w) ==> Valid(w')
  {
    match rec
    case PlayerRecord(_, team, _) => ResolveTeam(w, job, team)
    case MatchRecord(_, _, _, home, away, venue) => ResolveFixture(w, job, home, away, venue)
    case _ => w
  }

  /** The three lookups of the match scraper: home team, away team, venue,
      each logging its own WARNING when it creates a placeholder. */
  function ResolveFixture(w: World, job: int, home: string, away: string, venue: string): (w': World)
    ensures Warned(w, w', job, Warnings(w.store, [TeamRef(home), TeamRef(away), VenueRef(venue)]))
    ensures LogsOnlyFor(w, w', job)
    ensures w'.store == WithStadium(WithTeam(WithTeam(w.store, home), away), venue)
    ensures home in w'.store.teams && away in w'.store.teams && venue in w'.store.stadiums
    ensures Reconciles(w, w')
    ensures Valid(w) ==> Valid(w')
  {
    var w1 := ResolveTeam(w, job, home);
    var w2 := ResolveTeam(w1, job, away);
    var w3 := ResolveStadium(w2, job, venue);
    LogsOnlyForTransitive(w, w1, w2, job);
    LogsOnlyForTransitive(w, w2, w3, job);
    ReconcilesTransitive(w, w1, w2);
    ReconcilesTransitive(w, w2, w3);
    WarnedInTurn(w, w1, w2, w3, job, [TeamRef(home), TeamRef(away), VenueRef(venue)]);
    w3
  }

  /** Three lookups, each warning for its own name, warn for the three in
      turn. */
  lemma WarnedInTurn(w: World, w1: World, w2: World, w3: World, job: int, refs: seq<Ref>)
    requires |refs| == 3
    requires Warned(w, w1, job, Warnings(w.store, [refs[0]])) && w1.store == WithRef(w.store, refs[0])
    requires Warned(w1, w2, job, Warnings(w1.store, [refs[1]])) && w2.store == WithRef(w1.store, refs[1])
    requires Warned(w2, w3, job, Warnings(w2.store, [refs[2]]))
    ensures Warned(w, w3, job, Warnings(w.store, refs))
  {
    var a, b, c := Warnings(w.store, [refs[0]]), Warnings(w1.store, [refs[1]]), Warnings(w2.store, [refs[2]]);
    WarnedThen(w, w1, w2, job, a, b);
    WarnedThen(w, w2, w3, job, a + b, c);
    WarningsOfThree(w.store, refs);
  }

  lemma WarningsOfThree(s: Store, refs: seq<Ref>)
    requires |refs| == 3
    ensures var s1 := WithRef(s, refs[0]);
      Warnings(s, refs)
      == Warnings(s, [refs[0]]) + Warnings(s1, [refs[1]]) + Warnings(WithRef(s1, refs[1]), [refs[2]])
  {
    WarningsCons(WithRef(s, refs[0]), refs[1], [refs[2]]);
    WarningsCons(s, refs[0], [refs[1], refs[2]]);
    assert refs == [refs[0]] + [refs[1], refs[2]];
  }

  /** The row `rec` names is written as its upsert writes it, and no other
      row changes. */
  ghost predicate UpsertedRow(s: Store, s': Store, rec: Record) {
    var k := KeyOf(rec);
    && Lookup(s', k).Some? && Reflects(Lookup(s', k).value, rec)
    && (Lookup(s, k).Some? ==> KeepsUnwritten(Lookup(s, k).value, Lookup(s', k).value))
    && (Lookup(s, k).None? ==> Unwritten(Lookup(s', k).value))
    && (forall r :: r != k ==> Lookup(s', r) == Lookup(s, r))
  }

  /** `update_or_create` for the record's table. */
  function UpsertRecord(s: Store, rec: Record): (r: Upserted<Store>)
    ensures r.created <==> Lookup(s, KeyOf(rec)).None?
  {
    match rec
    case TeamRecord(n, sn, logo) => UpsertTeam(s, n, sn, Some(logo))
    case PlayerRecord(n, t, role) => UpsertPlayer(s, PlayerId(n, t), role)
    case MatchRecord(id, d, t, h, a, v) => UpsertMatch(s, id, d, t, h, a, v)
    case StadiumRecord(n, c, k, cap) => UpsertStadium(s, n, c, k, cap)
  }

  /** The upsert writes the record's row and no other. */
  lemma UpsertRecordRow(s: Store, rec: Record)
    ensures UpsertedRow(s, UpsertRecord(s, rec).table, rec)
  {
  }

  lemma AppliedFrom(s: Store, s1: Store, s': Store, rec: Record)
    requires AddsPlaceholders(s, s1, RefsOf(rec)) && Resolved(s1, RefsOf(rec))
    requires UpsertedRow(s1, s', rec)
    ensures Applied(s, s', rec)
    ensures Lookup(s1, KeyOf(rec)) == Lookup(s, KeyOf(rec))
  {
    var k := KeyOf(rec);
    assert k !in RefsOf(rec);
    forall r | r in RefsOf(rec) ensures Lookup(s', r).Some? {
      assert Lookup(s1, r).Some?;
    }
  }

  function DateText(d: Date): string {
    ZeroPad(d.year, 4) + "-" + ZeroPad(d.month, 2) + "-" + ZeroPad(d.day, 2)
  }

  predicate IsCreation(message: string) {
    |message| >= 12 && message[..12] == "Created new "
  }

  predicate IsUpdate(message: string) {
    |message| >= 8 && message[..8] == "Updated "
  }

  function Announce(created: bool, noun: string, what: string): (m: string)
    ensures IsCreation(m) <==> created
    ensures IsUpdate(m) <==> !created
  {
    var m := (if created then "Created new " else "Updated ") + noun + ": " + what;
    assert m[0] == if created then 'C' else 'U';
    m
  }

  /** What the INFO row says the record is: its table and its identity. */
  function Subject(rec: Record, s: Store): (string, string)
    requires Resolved(s, RefsOf(rec))
  {
    match rec
    case TeamRecord(n, _, _) => ("team", n)
    case PlayerRecord(n, t, _) => ("player", n + " (" + t + ")")
    case MatchRecord(_, d, _, h, a, _) =>
      assert Lookup(s, TeamKey(h)).Some? && Lookup(s, TeamKey(a)).Some?;
      ("match", s.teams[h].shortName + " vs " + s.teams[a].shortName + " - " + DateText(d))
    case StadiumRecord(n, c, _, _) => ("stadium", n + ", " + c)
  }

  /** The last row appended is the job's INFO row announcing the record, as
      a creation exactly when its row did not exist before. */
  ghost predicate AnnouncedLast(w: World, w': World, job: int, rec: Record) {
    && |w'.logs| > |w.logs|
    && var last := w'.logs[|w'.logs| - 1];
    && last.job == job && last.level == Info
    && (Lookup(w.store, KeyOf(rec)).None? <==> IsCreation(last.message))
    && (Lookup(w.store, KeyOf(rec)).Some? <==> IsUpdate(last.message))
  }

  /** One iteration of a scraper's loop body after its fields were read. */
  function Reconcile(w: World, job: int, rec: Record): (w': World)
    ensures LogsOnlyFor(w, w', job)
    ensures AnnouncedLast(w, w', job, rec)
    ensures Reconciles(w, w')
    ensures Valid(w) ==> Valid(w')
  {
    var w1 := ResolveRefs(w, job, rec);
    var u := UpsertRecord(w1.store, rec);
    ReconciledBasics(w.store, rec);
    var (noun, what) := Subject(rec, w1.store);
    var w2 := Append(w1.(store := u.table), job, Info, Announce(u.created, noun, what));
    LogsOnlyForTransitive(w, w1.(store := u.table), w2, job);
    w2
  }

  /** The rows one iteration writes: a WARNING for each reference missing
      when its turn comes, in lookup order, then the INFO row announcing
      the record (`AnnouncedLast`). */
  lemma ReconcileLogs(w: World, job: int, rec: Record)
    ensures var w' := Reconcile(w, job, rec);
      var warned := Warnings(w.store, LookupOrder(rec));
      && |w'.logs| == |w.logs| + |warned| + 1
      && w'.logs[..|w.logs| + |warned|] == w.logs + Stamped(job, w.clock, Warning, warned)
  {
  }

  /** The short name a match shows for team `name` once it is resolved: the
      stored one, or the code of the placeholder its lookup creates. */
  function ShownShortName(s: Store, name: string): string {
    if name in s.teams then s.teams[name].shortName else ShortCode(name)
  }

  /** What the INFO row says after reconciling `rec` against the store `s`:
      a team by its name, a player by its name and its team's name, a
      stadium by its name and city, and a match by `str(match)`, the two
      teams' short names and the ISO date. */
  function Announcement(s: Store, rec: Record): string {
    var head := if Lookup(s, KeyOf(rec)).None? then "Created new " else "Updated ";
    match rec
    case TeamRecord(n, _, _) => head + "team: " + n
    case PlayerRecord(n, t, _) => head + "player: " + (n + " (" + t + ")")
    case StadiumRecord(n, c, _, _) => head + "stadium: " + (n + ", " + c)
    case MatchRecord(_, d, _, h, a, _) =>
      head + "match: " + (ShownShortName(s, h) + " vs " + ShownShortName(s, a) + " - " + DateText(d))
  }

  /** The prefix, then the table and a colon, then the identity. */
  lemma AnnounceJoins(created: bool, noun: string, what: string)
    ensures Announce(created, noun, what) == (if created then "Created new " else "Updated ") + (noun + ": ") + what
  {
  }

  /** After the fixture's lookups the teams show their `ShownShortName`. */
  lemma MatchShown(s: Store, h: string, a: string, v: string)
    ensures var s1 := WithStadium(WithTeam(WithTeam(s, h), a), v);
      && h in s1.teams && a in s1.teams
      && s1.teams[h].shortName == ShownShortName(s, h)
      && s1.teams[a].shortName == ShownShortName(s, a)
  {
  }

  /** The store after the lookups identifies the record as `Announcement`
      does: same table, same identity, and the record's own row as absent
      or present as before. */
  lemma SubjectAfterLookups(s: Store, rec: Record)
    ensures Resolved(Placeholders(s, rec), RefsOf(rec))
    ensures Lookup(Placeholders(s, rec), KeyOf(rec)) == Lookup(s, KeyOf(rec))
    ensures var (noun, what) := Subject(rec, Placeholders(s, rec));
      Announcement(s, rec) == (if Lookup(s, KeyOf(rec)).None? then "Created new " else "Updated ") + (noun + ": ") + what
  {
    PlaceholdersAdded(s, rec);
    assert KeyOf(rec) !in RefsOf(rec);
    match rec
    case TeamRecord(_, _, _) =>
      assert "team" + ": " == "team: ";
    case PlayerRecord(_, _, _) =>
      assert "player" + ": " == "player: ";
    case StadiumRecord(_, _, _, _) =>
      assert "stadium" + ": " == "stadium: ";
    case MatchRecord(_, _, _, h, a, v) =>
      MatchShown(s, h, a, v);
      assert "match" + ": " == "match: ";
  }

  lemma AnnouncementOf(s: Store, rec: Record)
    ensures Resolved(Placeholders(s, rec), RefsOf(rec))
    ensures var s1 := Placeholders(s, rec);
      Announce(Lookup(s1, KeyOf(rec)).None?, Subject(rec, s1).0, Subject(rec, s1).1) == Announcement(s, rec)
  {
    SubjectAfterLookups(s, rec);
    var s1 := Placeholders(s, rec);
    AnnounceJoins(Lookup(s1, KeyOf(rec)).None?, Subject(rec, s1).0, Subject(rec, s1).1);
  }

  /** The INFO row that closes one iteration is stamped now and identifies
      the entity as `Announcement` words it. */
  lemma ReconcileAnnounces(w: World, job: int, rec: Record)
    ensures var w' := Reconcile(w, job, rec);
      w'.logs[|w'.logs| - 1] == LogEntry(job, w'.clock - 1, Info, Announcement(w.store, rec))
  {
    AnnouncementOf(w.store, rec);
  }

  /** A stadium that is new to the store is announced by its name and city,
      and nothing else is logged: "Created new stadium: Wankhede Stadium,
      Mumbai". */
  lemma NewStadiumAnnounced(w: World, job: int)
    requires "Wankhede Stadium" !in w.store.stadiums
    ensures var w' := Reconcile(w, job, StadiumRecord("Wankhede Stadium", "Mumbai", "India", Some(33108)));
      && |w'.logs| == |w.logs| + 1
      && w'.logs[|w.logs|] == LogEntry(job, w.clock, Info, "Created new stadium: Wankhede Stadium, Mumbai")
  {
    var rec := StadiumRecord("Wankhede Stadium", "Mumbai", "India", Some(33108));
    ReconcileLogs(w, job, rec);
    ReconcileAnnounces(w, job, rec);
    WankhedeText(w.store);
    assert Warnings(w.store, LookupOrder(rec)) == [];
  }

  lemma WankhedeText(s: Store)
    requires "Wankhede Stadium" !in s.stadiums
    ensures Announcement(s, StadiumRecord("Wankhede Stadium", "Mumbai", "India", Some(33108)))
      == "Created new stadium: Wankhede Stadium, Mumbai"
  {
    WankhedeJoined();
  }

  lemma WankhedeJoined()
    ensures "Created new " + "stadium: " + ("Wankhede Stadium" + ", " + "Mumbai")
      == "Created new stadium: Wankhede Stadium, Mumbai"
  {
  }

  /** Reconciling a record writes its row, resolves its references and
      touches nothing else (see `Applied`). */
  lemma ReconcileApplies(w: World, job: int, rec: Record)
    ensures Applied(w.store, Reconcile(w, job, rec).store, rec)
  {
    ReconcileStore(w, job, rec);
    ReconciledApplies(w.store, rec);
  }

  /** The rows one iteration leaves: the record's upsert applied after its
      placeholders. */
  function Reconciled(s: Store, rec: Record): Store {
    UpsertRecord(Placeholders(s, rec), rec).table
  }

  /** `Applied` for the store-only step. */
  lemma ReconciledApplies(s: Store, rec: Record)
    ensures Applied(s, Reconciled(s, rec), rec)
  {
    PlaceholdersAdded(s, rec);
    UpsertRecordRow(Placeholders(s, rec), rec);
    AppliedFrom(s, Placeholders(s, rec), Reconciled(s, rec), rec);
  }

  /** What one iteration needs of its own steps: the references resolve,
      the record's own row is not touched by them, and no row disappears. */
  lemma ReconciledBasics(s: Store, rec: Record)
    ensures Resolved(Placeholders(s, rec), RefsOf(rec))
    ensures Lookup(Placeholders(s, rec), KeyOf(rec)) == Lookup(s, KeyOf(rec))
    ensures Keeps(s, Reconciled(s, rec))
  {
    PlaceholdersAdded(s, rec);
    assert KeyOf(rec) !in RefsOf(rec);
    ReconciledApplies(s, rec);
    AppliedKeeps(s, Reconciled(s, rec), rec);
  }

  /** A change that only writes one row and adds placeholders loses no row. */
  lemma AppliedKeeps(s: Store, s': Store, rec: Record)
    requires Applied(s, s', rec)
    ensures Keeps(s, s')
  {
    forall n | n in s.teams ensures n in s'.teams {
      assert Lookup(s, TeamKey(n)).Some?;
    }
    forall n | n in s.players ensures n in s'.players {
      assert Lookup(s, PlayerKey(n)).Some?;
    }
    forall n | n in s.stadiums ensures n in s'.stadiums {
      assert Lookup(s, StadiumKey(n)).Some?;
    }
    forall n | n in s.matches ensures n in s'.matches {
      assert Lookup(s, MatchKey(n)).Some?;
    }
  }

  /** A row the record does not name keeps its value. */
  lemma ReconciledKeepsRow(s: Store, rec: Record, k: Key)
    requires Lookup(s, k).Some? && k != KeyOf(rec)
    ensures Lookup(Reconciled(s, rec), k) == Lookup(s, k)
  {
    ReconciledApplies(s, rec);
  }

  /** The record's own row reflects it. */
  lemma ReconciledReflects(s: Store, rec: Record)
    ensures Lookup(Reconciled(s, rec), KeyOf(rec)).Some?
    ensures Reflects(Lookup(Reconciled(s, rec), KeyOf(rec)).value, rec)
  {
    ReconciledApplies(s, rec);
  }

  /** The store a reconciliation leaves depends on the store and the record
      alone, whatever the job, the log or the clock. */
  lemma ReconcileStore(w: World, job: int, rec: Record)
    ensures Reconcile(w, job, rec).store == Reconciled(w.store, rec)
  {
  }

  /** Reconciling the same record twice leaves one row for its key, and the
      second pass reports an update, not a creation. */
  lemma ReconcileTwice(w: World, job: int, rec: Record)
    ensures var w1 := Reconcile(w, job, rec); var w2 := Reconcile(w1, job, rec);
      && Lookup(w2.store, KeyOf(rec)) == Lookup(w1.store, KeyOf(rec))
      && IsUpdate(w2.logs[|w2.logs| - 1].message)
  {
    var w1 := Reconcile(w, job, rec);
    ReconcileStore(w, job, rec);
    ReconcileStore(w1, job, rec);
    ReconciledReflects(w.store, rec);
    ReconciledIdempotent(w.store, rec);
  }

  /** A second pass of the same record finds its row and leaves it as is. */
  lemma ReconciledIdempotent(s: Store, rec: Record)
    ensures var s1 := Reconciled(s, rec);
      Lookup(Reconciled(s1, rec), KeyOf(rec)) == Lookup(s1, KeyOf(rec))
  {
    var s1 := Reconciled(s, rec);
    ReconciledApplies(s, rec);
    ReconciledApplies(s1, rec);
  }
}

=== FILE: scraper_properties.dfy ===
/** Properties of a scraper run that relate several calls: the loop keeps
    what it wrote before a failing container, the last container for a key
    decides that row, and the three ways a run can end. */
module ScraperProperties {
  import opened Wrappers
  import opened Entities
  import opened Ledger
  import opened Extraction
  import opened Reconciliation
  import opened Scrapers

  /** One step of the loop: a container that reads is reconciled and the
      loop goes on with the rest. */
  lemma ProcessStep(w: World, job: int, blocks: seq<Block>, p: Parsers)
    requires |blocks| > 0 && Parse(blocks[0], p).Success?
    ensures Process(w, job, blocks, p) == Process(Reconcile(w, job, Parse(blocks[0], p).value), job, blocks[1..], p)
  {
  }

  /** A container that does not read stops the loop on the spot. */
  lemma ProcessStop(w: World, job: int, blocks: seq<Block>, p: Parsers)
    requires |blocks| > 0 && Parse(blocks[0], p).Failure?
    ensures Process(w, job, blocks, p) == Progress(w, Some(Parse(blocks[0], p).error))
  {
  }

  /** No rollback: when container `k` is the first that cannot be read, the
      loop stops there with its error, and the state it leaves is exactly
      the one a loop over containers `0..k-1` alone completes with. */
  lemma {:induction false} NoRollback(w: World, job: int, blocks: seq<Block>, p: Parsers, k: nat)
    requires k < |blocks|
    requires AllParse(blocks[..k], p)
    requires Parse(blocks[k], p).Failure?
    ensures Process(w, job, blocks[..k], p).failure.None?
    ensures Process(w, job, blocks, p)
         == Progress(Process(w, job, blocks[..k], p).world, Some(Parse(blocks[k], p).error))
    decreases k
  {
    if k == 0 {
      assert blocks[..0] == [];
      ProcessStop(w, job, blocks, p);
    } else {
      var prefix := blocks[..k];
      PrefixTail(blocks, k);
      AllParseTail(prefix, p);
      var w1 := Reconcile(w, job, Parse(blocks[0], p).value);
      NoRollback(w1, job, blocks[1..], p, k - 1);
      ProcessStep(w, job, blocks, p);
      ProcessStep(w, job, prefix, p);
      assert Process(w, job, prefix, p) == Process(w1, job, blocks[1..][..k - 1], p);
    }
  }

  /** Dropping the first container commutes with taking a prefix. */
  lemma PrefixTail<T>(s: seq<T>, k: nat)
    requires 0 < k < |s|
    ensures s[..k][0] == s[0] && s[1..][..k - 1] == s[..k][1..] && s[1..][k - 1] == s[k]
  {
  }

  /** Reference definition of the loop's effect on the domain store: the
      store alone, folded over the containers up to the first that does not
      read. */
  function Stored(s: Store, blocks: seq<Block>, p: Parsers): Store
    decreases |blocks|
  {
    if |blocks| == 0 then s
    else
      match Parse(blocks[0], p)
      case Failure(_) => s
      case Success(rec) => Stored(Reconciled(s, rec), blocks[1..], p)
  }

  /** The rows a run leaves depend on the store it started from and the page
      alone, not on the job, the log or the clock. */
  lemma {:induction false} ProcessStore(w: World, job: int, blocks: seq<Block>, p: Parsers)
    ensures Process(w, job, blocks, p).world.store == Stored(w.store, blocks, p)
    decreases |blocks|
  {
    if |blocks| > 0 {
      if Parse(blocks[0], p).Success? {
        var rec := Parse(blocks[0], p).value;
        ProcessStep(w, job, blocks, p);
        ReconcileStore(w, job, rec);
        ProcessStore(Reconcile(w, job, rec), job, blocks[1..], p);
      } else {
        ProcessStop(w, job, blocks, p);
      }
    }
  }

  /** A row that exists and that no container names stays as it is. */
  lemma {:induction false} StoredUntouched(s: Store, blocks: seq<Block>, p: Parsers, k: Key)
    requires AllParse(blocks, p)
    requires forall j :: 0 <= j < |blocks| ==> KeyOf(Parse(blocks[j], p).value) != k
    requires Lookup(s, k).Some?
    ensures Lookup(Stored(s, blocks, p), k) == Lookup(s, k)
    decreases |blocks|
  {
    if |blocks| > 0 {
      AllParseTail(blocks, p);
      var rec := Parse(blocks[0], p).value;
      assert KeyOf(rec) != k;
      ReconciledKeepsRow(s, rec, k);
      assert forall j :: 0 <= j < |blocks| - 1 ==> blocks[1..][j] == blocks[j + 1];
      StoredUntouched(Reconciled(s, rec), blocks[1..], p, k);
    }
  }

  /** A row that exists and that no container names stays as it is. */
  lemma RowUntouched(w: World, job: int, blocks: seq<Block>, p: Parsers, k: Key)
    requires AllParse(blocks, p)
    requires forall j :: 0 <= j < |blocks| ==> KeyOf(Parse(blocks[j], p).value) != k
    requires Lookup(w.store, k).Some?
    ensures Lookup(Process(w, job, blocks, p).world.store, k) == Lookup(w.store, k)
  {
    ProcessStore(w, job, blocks, p);
    StoredUntouched(w.store, blocks, p, k);
  }

  /** The row of container `i`'s key carries its fields when no later
      container names the same key. */
  lemma {:induction false} StoredLastWrite(s: Store, blocks: seq<Block>, p: Parsers, i: nat)
    requires AllParse(blocks, p)
    requires i < |blocks|
    requires forall j :: i < j < |blocks| ==> KeyOf(Parse(blocks[j], p).value) != KeyOf(Parse(blocks[i], p).value)
    ensures var rec := Parse(blocks[i], p).value;
      var row := Lookup(Stored(s, blocks, p), KeyOf(rec));
      row.Some? && Reflects(row.value, rec)
    decreases |blocks|
  {
    AllParseTail(blocks, p);
    var first := Parse(blocks[0], p).value;
    var s1 := Reconciled(s, first);
    assert Stored(s, blocks, p) == Stored(s1, blocks[1..], p);
    assert forall j :: 0 <= j < |blocks| - 1 ==> blocks[1..][j] == blocks[j + 1];
    if i == 0 {
      ReconciledReflects(s, first);
      StoredUntouched(s1, blocks[1..], p, KeyOf(first));
    } else {
      StoredLastWrite(s1, blocks[1..], p, i - 1);
    }
  }

  /** Containers are processed in document order: after a complete loop,
      the row of each key carries the fields of the LAST container that
      names that key. */
  lemma LastWriteWins(w: World, job: int, blocks: seq<Block>, p: Parsers, i: nat)
    requires AllParse(blocks, p)
    requires i < |blocks|
    requires forall j :: i < j < |blocks| ==> KeyOf(Parse(blocks[j], p).value) != KeyOf(Parse(blocks[i], p).value)
    ensures var s := Process(w, job, blocks, p).world.store;
      var rec := Parse(blocks[i], p).value;
      Lookup(s, KeyOf(rec)).Some? && Reflects(Lookup(s, KeyOf(rec)).value, rec)
  {
    ProcessStore(w, job, blocks, p);
    StoredLastWrite(w.store, blocks, p, i);
  }

  /** A loop stopped by container `k` leaves the rows of containers
      `0..k-1` written. */
  lemma StoredUpToFailure(s: Store, blocks: seq<Block>, p: Parsers, k: nat)
    requires k < |blocks|
    requires AllParse(blocks[..k], p)
    requires Parse(blocks[k], p).Failure?
    ensures Stored(s, blocks, p) == Stored(s, blocks[..k], p)
  {
    var w := World(map[], 1, [], map[], map[], s, 0);
    NoRollback(w, 0, blocks, p, k);
    ProcessStore(w, 0, blocks, p);
    ProcessStore(w, 0, blocks[..k], p);
  }

  // ---------------------------------------------------------------------
  // How a run ends

  /** The first row a run writes announces the scraper and the URL. */
  lemma RunStartsWithAnnouncement(w: World, s: Scraper, env: Env)
    requires s.job.Some? && s.job.value in w.jobs
    ensures var w' := Run(w, s, env); var id := s.job.value;
      |w'.logs| > |w.logs|
      && w'.logs[|w.logs|] == LogEntry(id, w.clock, Info, "Starting " + Noun(s.kind) + " scraper for URL: " + w.jobs[id].url)
  {
  }

  /** A page that cannot be fetched fails the job with the fetch error, adds
      exactly two log rows (the start and the fetch helper's ERROR) and
      leaves the domain store alone. */
  lemma UnreachablePageFailsJob(w: World, s: Scraper, env: Env)
    requires s.job.Some? && s.job.value in w.jobs
    requires Fetch(s.kind, env, w.jobs[s.job.value].url).Unreachable?
    ensures var w' := Run(w, s, env); var id := s.job.value;
      var f := Fetch(s.kind, env, w.jobs[id].url);
      && w'.jobs[id].status == Failed && w'.jobs[id].errorMessage == Some(f.cause)
      && w'.store == w.store
      && |w'.logs| == |w.logs| + 2
      && w'.logs[|w.logs| + 1] == LogEntry(id, w.clock + 1, Error, f.logText)
  {
  }

  /** A fetch that raises (the player page's navigation error or the wait
      that times out) is caught by the run's own handler: the job is FAILED
      with the exception's text, which the ERROR row after the start row
      repeats behind "Error in player scraper: ", and no row is written. */
  lemma RaisedFetchFailsJob(w: World, s: Scraper, env: Env)
    requires s.job.Some? && s.job.value in w.jobs
    requires Fetch(s.kind, env, w.jobs[s.job.value].url).Raised?
    ensures var w' := Run(w, s, env); var id := s.job.value;
      var f := Fetch(s.kind, env, w.jobs[id].url);
      && s.kind == PlayerScraper
      && w'.jobs[id].status == Failed && w'.jobs[id].errorMessage == Some(f.cause)
      && w'.store == w.store
      && |w'.logs| == |w.logs| + 2
      && w'.logs[|w.logs| + 1] == LogEntry(id, w.clock + 1, Error, "Error in player scraper: " + f.cause)
  {
    var id := s.job.value;
    var url := w.jobs[id].url;
    var cause := Fetch(s.kind, env, url).cause;
    var w1 := Append(w, id, Info, "Starting " + Noun(s.kind) + " scraper for URL: " + url);
    assert s.kind == PlayerScraper && w1.jobs[id].url == url;
    assert "Error in " + Noun(s.kind) + " scraper: " == "Error in player scraper: ";
    assert Scrape(w1, id, s.kind, env) == Fail(w1, id, "Error in player scraper: " + cause, cause);
  }

  /** The job ends COMPLETED exactly when the page was fetched and every
      selected container could be read; the store then holds the fold of
      all containers. */
  lemma RunCompletesIffAllRead(w: World, s: Scraper, env: Env)
    requires s.job.Some? && s.job.value in w.jobs
    ensures var w' := Run(w, s, env); var id := s.job.value;
      var f := Fetch(s.kind, env, w.jobs[id].url);
      && (w'.jobs[id].status == JobStatus.Completed <==>
            f.Page? && AllParse(Select(f.doc, ContainerOf(s.kind)), env.parsers))
      && (f.Page? ==> w'.store == Stored(w.store, Select(f.doc, ContainerOf(s.kind)), env.parsers))
      && (!f.Page? ==> w'.store == w.store)
  {
    var id := s.job.value;
    var url := w.jobs[id].url;
    var w1 := Append(w, id, Info, "Starting " + Noun(s.kind) + " scraper for URL: " + url);
    match Fetch(s.kind, env, url)
    case Page(doc) =>
      ProcessStore(w1, id, Select(doc, ContainerOf(s.kind)), env.parsers);
    case _ =>
  }

  /** A container that cannot be read fails the job with the description of
      its error, as the last log row says too, and the rows of the
      containers before it stay written. */
  lemma UnreadableContainerFailsJob(w: World, s: Scraper, env: Env, k: nat)
    requires s.job.Some? && s.job.value in w.jobs
    requires Fetch(s.kind, env, w.jobs[s.job.value].url).Page?
    requires var blocks := Select(Fetch(s.kind, env, w.jobs[s.job.value].url).doc, ContainerOf(s.kind));
      k < |blocks| && AllParse(blocks[..k], env.parsers) && Parse(blocks[k], env.parsers).Failure?
    ensures var w' := Run(w, s, env); var id := s.job.value;
      var blocks := Select(Fetch(s.kind, env, w.jobs[id].url).doc, ContainerOf(s.kind));
      var cause := Describe(Parse(blocks[k], env.parsers).error);
      && w'.jobs[id].status == Failed && w'.jobs[id].errorMessage == Some(cause)
      && w'.store == Stored(w.store, blocks[..k], env.parsers)
      && w'.logs[|w'.logs| - 1].level == Error
      && w'.logs[|w'.logs| - 1].message == "Error in " + Noun(s.kind) + " scraper: " + cause
  {
    var id := s.job.value;
    var url := w.jobs[id].url;
    var blocks := Select(Fetch(s.kind, env, url).doc, ContainerOf(s.kind));
    var w1 := Append(w, id, Info, "Starting " + Noun(s.kind) + " scraper for URL: " + url);
    NoRollback(w1, id, blocks, env.parsers, k);
    ProcessStore(w1, id, blocks, env.parsers);
    StoredUpToFailure(w.store, blocks, env.parsers, k);
  }

  /** A run that reads every container ends with the completion row. */
  lemma CompletedRunAnnouncesSuccess(w: World, s: Scraper, env: Env)
    requires s.job.Some? && s.job.value in w.jobs
    requires Run(w, s, env).jobs[s.job.value].status == JobStatus.Completed
    ensures var w' := Run(w, s, env);
      && w'.logs[|w'.logs| - 1].level == Info
      && w'.logs[|w'.logs| - 1].message == Title(s.kind) + " scraper completed successfully"
  {
    var id := s.job.value;
    var url := w.jobs[id].url;
    var w1 := Append(w, id, Info, "Starting " + Noun(s.kind) + " scraper for URL: " + url);
    assert Run(w, s, env) == Scrape(w1, id, s.kind, env);
    match Fetch(s.kind, env, url)
    case Page(doc) =>
      var r := Process(w1, id, Select(doc, ContainerOf(s.kind)), env.parsers);
      assert r.failure.None?;
    case _ =>
  }
}

=== FILE: scrapers.dfy ===
/** The job runner: constructing a scraper (which marks its job RUNNING),
    the per-type `run` (fetch, then read and reconcile every container in
    document order, then the terminal write), the failure paths, and the
    type-to-scraper registry. Every function returns the new state; the
    job a scraper is attached to is threaded through explicitly. */
module Scrapers {
  import opened Wrappers
  import opened Entities
  import opened Ledger
  import opened Extraction
  import opened Reconciliation

  datatype ScraperKind = TeamScraper | PlayerScraper | MatchScraper | StadiumScraper

  /** A constructed scraper: its class and the id of the job it is attached
      to, when the id it was given named an existing job. */
  datatype Scraper = Scraper(kind: ScraperKind, job: Option<int>)

  /** Whether starting the headless browser succeeded. */
  datatype Driver = DriverStarted | DriverFailed(cause: string)

  /** Everything a run gets from outside: the page a plain HTTP GET of a URL
      yields (or the text of the request error), whether the browser starts,
      the page the browser renders for a URL (or the text of the navigation
      error), and the date and time parsers. */
  datatype Env = Env(
    httpGet: string -> Result<Document, string>,
    driver: Driver,
    render: string -> Result<Document, string>,
    parsers: Parsers)

  /** The registry of scraper classes by job type; LIVE has none. */
  function Registry(t: JobType): (k: Option<ScraperKind>)
    ensures k.None? <==> t == LiveData
  {
    match t
    case TeamData => Some(TeamScraper)
    case PlayerData => Some(PlayerScraper)
    case MatchData => Some(MatchScraper)
    case StadiumData => Some(StadiumScraper)
    case LiveData => None
  }

  function ContainerOf(k: ScraperKind): Container {
    match k
    case TeamScraper => TeamContainer
    case PlayerScraper => PlayerContainer
    case MatchScraper => MatchContainer
    case StadiumScraper => StadiumContainer
  }

  function Noun(k: ScraperKind): string {
    match k
    case TeamScraper => "team"
    case PlayerScraper => "player"
    case MatchScraper => "match"
    case StadiumScraper => "stadium"
  }

  function Title(k: ScraperKind): string {
    match k
    case TeamScraper => "Team"
    case PlayerScraper => "Player"
    case MatchScraper => "Match"
    case StadiumScraper => "Stadium"
  }

  /** Only job `id` may have changed, and nothing else in the state did. */
  ghost predicate OnlyJobChanged(w: World, w': World, id: int) {
    && w'.jobs.Keys == w.jobs.Keys
    && (forall j :: j in w.jobs && j != id ==> w'.jobs[j] == w.jobs[j])
    && w'.nextJobId == w.nextJobId && w'.logs == w.logs && w'.store == w.store
    && w'.sources == w.sources && w'.configs == w.configs
  }

  /** Type, URL and scheduled time of a job never change once it exists. */
  predicate SameOrder(j: ScraperJob, j': ScraperJob) {
    j'.jobType == j.jobType && j'.url == j.url && j'.scheduledTime == j.scheduledTime
  }

  /** `BaseScraper.__init__`: an id that names a job (ids are truthy unless
      0) attaches the scraper to it and marks it RUNNING with a start time;
      any other id leaves every row alone. */
  function Construct(w: World, kind: ScraperKind, jobId: int): (r: (World, Scraper))
    ensures r.1.kind == kind
    ensures jobId != 0 && jobId in w.jobs ==>
      && r.1.job == Some(jobId)
      && OnlyJobChanged(w, r.0, jobId)
      && r.0.jobs[jobId].status == Running
      && r.0.jobs[jobId].startTime == Some(w.clock)
      && SameOrder(w.jobs[jobId], r.0.jobs[jobId])
      && r.0.jobs[jobId].endTime == w.jobs[jobId].endTime
      && r.0.jobs[jobId].errorMessage == w.jobs[jobId].errorMessage
      && r.0.clock > w.clock
    ensures !(jobId != 0 && jobId in w.jobs) ==> r.0 == w && r.1.job.None?
    ensures Valid(w) ==> Valid(r.0)
  {
    if jobId != 0 && jobId in w.jobs then
      var job := w.jobs[jobId].(status := Running, startTime := Some(w.clock));
      (w.(jobs := w.jobs[jobId := job], clock := w.clock + 1), Scraper(kind, Some(jobId)))
    else
      (w, Scraper(kind, None))
  }

  /** `BaseScraper.log`: a row is written only when a job is attached. */
  function Log(w: World, s: Scraper, level: Level, message: string): (w': World)
    ensures s.job.None? ==> w' == w
    ensures s.job.Some? ==>
      && w'.logs == w.logs + [LogEntry(s.job.value, w.clock, level, message)]
      && Reconciles(w, w') && w'.store == w.store
    ensures Valid(w) ==> Valid(w')
  {
    match s.job
    case None => w
    case Some(id) => Append(w, id, level, message)
  }

  /** `finish_job` (and the identical failure write of the fetch helpers):
      status, error message and end time are written together. */
  function FinishJob(w: World, id: int, status: JobStatus, error: Option<string>): (w': World)
    requires id in w.jobs
    ensures OnlyJobChanged(w, w', id)
    ensures w'.jobs[id].status == status && w'.jobs[id].errorMessage == error
    ensures w'.jobs[id].endTime == Some(w.clock) && w'.clock > w.clock
    ensures SameOrder(w.jobs[id], w'.jobs[id]) && w'.jobs[id].startTime == w.jobs[id].startTime
    ensures Valid(w) ==> Valid(w')
  {
    var job := w.jobs[id].(status := status, errorMessage := error, endTime := Some(w.clock));
    w.(jobs := w.jobs[id := job], clock := w.clock + 1)
  }

  /** What fetching a job's page gave. `Unreachable` is a failure the fetch
      helper itself records (with its own ERROR text); `Raised` is an
      exception that reaches the run's handler. */
  datatype Fetched = Page(doc: Document) | Unreachable(logText: string, cause: string) | Raised(cause: string)

  /** The text of Selenium's `TimeoutException` when `WebDriverWait.until`
      gives up without a message of its own. */
  const WaitTimedOut := "Message: \n"

  /** `get_soup` for the static scrapers; for players, `get_selenium_driver`,
      navigation, and the ten-second wait for a `.player-container`, which
      raises when the rendered page has none. */
  function Fetch(kind: ScraperKind, env: Env, url: string): (f: Fetched)
    ensures kind != PlayerScraper ==>
      && !f.Raised?
      && (f.Unreachable? <==> env.httpGet(url).Failure?)
      && (f.Unreachable? ==>
            f.cause == env.httpGet(url).error && f.logText == "Error fetching URL " + url + ": " + f.cause)
      && (f.Page? ==> f.doc == env.httpGet(url).value)
    ensures kind == PlayerScraper ==>
      && (f.Unreachable? <==> env.driver.DriverFailed?)
      && (f.Unreachable? ==>
            f.cause == env.driver.cause && f.logText == "Error initializing Selenium WebDriver: " + f.cause)
      && (f.Page? <==>
            env.driver.DriverStarted? && env.render(url).Success?
            && Select(env.render(url).value, PlayerContainer) != [])
      && (f.Page? ==> f.doc == env.render(url).value)
      && (f.Raised? ==>
            f.cause == if env.render(url).Failure? then env.render(url).error else WaitTimedOut)
  {
    if kind == PlayerScraper then
      match env.driver
      case DriverFailed(cause) => Unreachable("Error initializing Selenium WebDriver: " + cause, cause)
      case DriverStarted =>
        match env.render(url)
        case Failure(cause) => Raised(cause)
        case Success(doc) =>
          if Select(doc, PlayerContainer) == [] then Raised(WaitTimedOut) else Page(doc)
    else
      match env.httpGet(url)
      case Failure(cause) => Unreachable("Error fetching URL " + url + ": " + cause, cause)
      case Success(doc) => Page(doc)
  }

  /** Where the loop over containers stopped: the state it left and, if a
      container could not be read, the error it raised. */
  datatype Progress = Progress(world: World, failure: Option<ScrapeError>)

  predicate AllParse(blocks: seq<Block>, p: Parsers) {
    forall i :: 0 <= i < |blocks| ==> Parse(blocks[i], p).Success?
  }

  lemma AllParseTail(blocks: seq<Block>, p: Parsers)
    requires |blocks| > 0
    ensures AllParse(blocks, p) <==> Parse(blocks[0], p).Success? && AllParse(blocks[1..], p)
  {
    assert forall i :: 1 <= i < |blocks| ==> blocks[i] == blocks[1..][i - 1];
  }

  /** The loop body of a scraper's `run`, over the selected containers in
      order; the first container that raises stops the loop, and nothing
      written before it is undone. */
  function Process(w: World, job: int, blocks: seq<Block>, p: Parsers): (r: Progress)
    ensures Reconciles(w, r.world)
    ensures LogsOnlyFor(w, r.world, job)
    ensures Valid(w) ==> Valid(r.world)
    ensures r.failure.None? <==> AllParse(blocks, p)
    decreases |blocks|
  {
    if |blocks| == 0 then Progress(w, None)
    else
      match Parse(blocks[0], p)
      case Failure(e) => Progress(w, Some(e))
      case Success(rec) =>
        AllParseTail(blocks, p);
        var w1 := Reconcile(w, job, rec);
        var r := Process(w1, job, blocks[1..], p);
        ReconcilesTransitive(w, w1, r.world);
        LogsOnlyForTransitive(w, w1, r.world, job);
        r
  }

  /** The run handler's failure path: an ERROR row, then the FAILED write. */
  function Fail(w: World, id: int, logText: string, cause: string): (w': World)
    requires id in w.jobs
    ensures Terminated(w, w', id) && LogsOnlyFor(w, w', id)
    ensures w'.jobs[id].status == Failed && w'.jobs[id].errorMessage == Some(cause)
    ensures w'.logs == w.logs + [LogEntry(id, w.clock, Error, logText)] && w'.store == w.store
    ensures Valid(w) ==> Valid(w')
  {
    FinishJob(Append(w, id, Error, logText), id, Failed, Some(cause))
  }

  /** The run's success path: the COMPLETED write, then an INFO row. */
  function Succeed(w: World, id: int, kind: ScraperKind): (w': World)
    requires id in w.jobs
    ensures Terminated(w, w', id) && LogsOnlyFor(w, w', id)
    ensures w'.jobs[id].status == JobStatus.Completed
    ensures w'.logs == w.logs + [LogEntry(id, w.clock + 1, Info, Title(kind) + " scraper completed successfully")]
    ensures w'.store == w.store
    ensures Valid(w) ==> Valid(w')
  {
    var w1 := FinishJob(w, id, JobStatus.Completed, None);
    Append(w1, id, Info, Title(kind) + " scraper completed successfully")
  }

  /** The terminal write has happened: job `id` is COMPLETED or FAILED with an
      end time taken during the run, an error message exactly when it failed,
      and its type, URL, schedule and start untouched; no other job changed;
      the domain store only gained or updated rows; the log only grew. */
  ghost predicate Terminated(w: World, w': World, id: int) {
    && id in w.jobs && id in w'.jobs
    && (w'.jobs[id].status == JobStatus.Completed || w'.jobs[id].status == Failed)
    && (w'.jobs[id].status == JobStatus.Completed <==> w'.jobs[id].errorMessage.None?)
    && w'.jobs[id].endTime.Some? && w.clock <= w'.jobs[id].endTime.value < w'.clock
    && SameOrder(w.jobs[id], w'.jobs[id]) && w'.jobs[id].startTime == w.jobs[id].startTime
    && w'.jobs.Keys == w.jobs.Keys
    && (forall j :: j in w.jobs && j != id ==> w'.jobs[j] == w.jobs[j])
    && w'.nextJobId == w.nextJobId && w'.sources == w.sources && w'.configs == w.configs
    && w.logs <= w'.logs && Keeps(w.store, w'.store)
  }

  /** `TeamScraper.run`, `PlayerScraper.run`, `MatchScraper.run` and
      `StadiumScraper.run`: without a job nothing is written; with one, the
      job always ends COMPLETED or FAILED. */
  function Run(w: World, s: Scraper, env: Env): (w': World)
    requires s.job.Some? ==> s.job.value in w.jobs
    ensures s.job.None? ==> w' == w
    ensures s.job.Some? ==> Terminated(w, w', s.job.value) && LogsOnlyFor(w, w', s.job.value)
    ensures Valid(w) ==> Valid(w')
  {
    match s.job
    case None => Log(w, s, Error, "No job specified")
    case Some(id) =>
      var w1 := Append(w, id, Info, "Starting " + Noun(s.kind) + " scraper for URL: " + w.jobs[id].url);
      var w2 := Scrape(w1, id, s.kind, env);
      TerminatedAfter(w, w1, w2, id);
      LogsOnlyForTransitive(w, w1, w2, id);
      w2
  }

  /** The `try` block of a run after its first row, with its handler: fetch
      the page, reconcile its containers in order, and end the job. */
  function Scrape(w: World, id: int, kind: ScraperKind, env: Env): (w': World)
    requires id in w.jobs
    ensures Terminated(w, w', id) && LogsOnlyFor(w, w', id)
    ensures Valid(w) ==> Valid(w')
  {
    var url := w.jobs[id].url;
    var handler := "Error in " + Noun(kind) + " scraper: ";
    match Fetch(kind, env, url)
    case Unreachable(logText, cause) => Fail(w, id, logText, cause)
    case Raised(cause) => Fail(w, id, handler + cause, cause)
    case Page(doc) =>
      var r := Process(w, id, Select(doc, ContainerOf(kind)), env.parsers);
      var w' := match r.failure
        case None => Succeed(r.world, id, kind)
        case Some(e) => Fail(r.world, id, handler + Describe(e), Describe(e));
      TerminatedAfter(w, r.world, w', id);
      LogsOnlyForTransitive(w, r.world, w', id);
      w'
  }

  /** Bookkeeping done before the terminal write does not disturb it. */
  lemma TerminatedAfter(w0: World, w1: World, w2: World, id: int)
    requires Reconciles(w0, w1) && Terminated(w1, w2, id)
    ensures Terminated(w0, w2, id)
  {
  }

  /** `get_scraper`: a scraper exists only for the four registered types;
      for any other type (LIVE) nothing is constructed and no row changes. */
  function GetScraper(w: World, t: JobType, jobId: int): (r: (World, Option<Scraper>))
    ensures Registry(t).None? ==> r.0 == w && r.1.None?
    ensures Registry(t).Some? ==>
      r.1.Some? && (r.0, r.1.value) == Construct(w, Registry(t).value, jobId)
    ensures r.1.Some? && r.1.value.job.Some? ==> r.1.value.job.value in r.0.jobs
    ensures Valid(w) ==> Valid(r.0)
  {
    match Registry(t)
    case None => (w, None)
    case Some(kind) =>
      var (w', s) := Construct(w, kind, jobId);
      (w', Some(s))
  }

  /** `scraper = get_scraper(type, id); if scraper: scraper.run()`, as the
      command and the REST action both do; the flag says whether a scraper
      was constructed. */
  function Dispatch(w: World, t: JobType, jobId: int, env: Env): (r: (World, bool))
    ensures r.1 <==> t != LiveData
    ensures !(r.1 && jobId != 0 && jobId in w.jobs) ==> r.0 == w
    ensures r.1 && jobId != 0 && jobId in w.jobs ==> Lifecycle(w, r.0, jobId)
    ensures r.0.jobs.Keys == w.jobs.Keys && LogsOnlyFor(w, r.0, jobId)
    ensures Valid(w) ==> Valid(r.0)
  {
    var (w1, built) := GetScraper(w, t, jobId);
    match built
    case None => (w1, false)
    case Some(s) => (Run(w1, s, env), true)
  }

  /** The whole RUNNING cycle of job `id`: it was stamped RUNNING at the
      start, then terminated, so its start time precedes its end time. */
  ghost predicate Lifecycle(w: World, w': World, id: int) {
    && id in w.jobs && id in w'.jobs
    && (w'.jobs[id].status == JobStatus.Completed || w'.jobs[id].status == Failed)
    && (w'.jobs[id].status == JobStatus.Completed <==> w'.jobs[id].errorMessage.None?)
    && w'.jobs[id].startTime == Some(w.clock)
    && w'.jobs[id].endTime.Some? && w.clock < w'.jobs[id].endTime.value < w'.clock
    && SameOrder(w.jobs[id], w'.jobs[id])
    && w'.jobs.Keys == w.jobs.Keys
    && (forall j :: j in w.jobs && j != id ==> w'.jobs[j] == w.jobs[j])
    && w'.nextJobId == w.nextJobId && w'.sources == w.sources && w'.configs == w.configs
    && LogsOnlyFor(w, w', id) && Keeps(w.store, w'.store)
  }
}

=== FILE: text.dfy ===
/** The character-level helpers the scrapers lean on: Python's `int()` on a
    plain decimal string, `str(n)`, `str.replace(c, '')`, `str.split(c)`
    reduced to the pieces the code indexes, and ASCII `str.upper()`. */
module Text {
  import opened Wrappers

  predicate IsDigit(c: char) {
    '0' <= c <= '9'
  }

  predicate AllDigits(s: string) {
    forall i :: 0 <= i < |s| ==> IsDigit(s[i])
  }

  function DigitValue(c: char): nat
    requires IsDigit(c)
  {
    c as int - '0' as int
  }

  function DigitChar(d: nat): char
    requires d < 10
  {
    ('0' as int + d) as char
  }

  /** The value of a decimal digit string, most significant digit first. */
  function DigitsValue(s: string): nat
    requires AllDigits(s)
  {
    if |s| == 0 then 0 else DigitsValue(s[..|s| - 1]) * 10 + DigitValue(s[|s| - 1])
  }

  /** Python's `int(s)` restricted to ASCII decimal digits: a non-empty digit
      string parses (leading zeros allowed), anything else raises. */
  function ParseNat(s: string): (r: Option<nat>)
    ensures r.Some? <==> |s| > 0 && AllDigits(s)
  {
    if |s| > 0 && AllDigits(s) then Some(DigitsValue(s)) else None
  }

  /** Python's `str(n)` for a non-negative integer. */
  function NatToString(n: nat): (s: string)
    ensures |s| > 0 && AllDigits(s)
    ensures |s| > 1 ==> s[0] != '0'
  {
    if n < 10 then [DigitChar(n)] else NatToString(n / 10) + [DigitChar(n % 10)]
  }

  /** Python's `str(i)` for any integer. */
  function IntToString(i: int): (s: string)
    ensures |s| > 0
    ensures i >= 0 <==> s[0] != '-'
  {
    if i < 0 then "-" + NatToString(-i) else NatToString(i)
  }

  /** Printing a number and parsing it back gives the number. */
  lemma {:induction false} ParseNatToString(n: nat)
    ensures ParseNat(NatToString(n)) == Some(n)
  {
    var s := NatToString(n);
    assert DigitValue(s[|s| - 1]) == n % 10;
    if n >= 10 {
      ParseNatToString(n / 10);
      assert s[..|s| - 1] == NatToString(n / 10);
    } else {
      assert s[..|s| - 1] == [];
      assert DigitsValue(s) == DigitsValue([]) * 10 + n;
    }
  }

  /** A leading zero does not change the value of a digit string. */
  lemma {:induction false} LeadingZero(s: string)
    requires AllDigits(s)
    ensures AllDigits("0" + s) && DigitsValue("0" + s) == DigitsValue(s)
  {
    var t := "0" + s;
    assert AllDigits(t);
    if |s| > 0 {
      assert t[..|t| - 1] == "0" + s[..|s| - 1];
      LeadingZero(s[..|s| - 1]);
    } else {
      assert t[..|t| - 1] == [];
    }
  }

  lemma {:induction false} LeadingZeros(k: nat, s: string)
    requires AllDigits(s)
    ensures AllDigits(Zeros(k) + s) && DigitsValue(Zeros(k) + s) == DigitsValue(s)
  {
    if k > 0 {
      LeadingZeros(k - 1, s);
      assert Zeros(k) + s == "0" + (Zeros(k - 1) + s);
      LeadingZero(Zeros(k - 1) + s);
    } else {
      assert Zeros(k) + s == s;
    }
  }

  /** Python's `s.replace(c, '')`: every occurrence of `c` removed, the other
      characters kept. Together with `WithoutAppend`, the one-character case
      fixes the result: the kept characters stay in their order. */
  function Without(s: string, c: char): (r: string)
    ensures c !in r
    ensures forall x :: x != c ==> (x in r <==> x in s)
    ensures c !in s ==> r == s
    ensures |s| == 1 ==> r == (if s[0] == c then "" else s)
    ensures |r| <= |s|
  {
    if |s| == 0 then ""
    else if s[0] == c then Without(s[1..], c)
    else [s[0]] + Without(s[1..], c)
  }

  /** Removing a character distributes over concatenation. */
  lemma {:induction false} WithoutAppend(a: string, b: string, c: char)
    ensures Without(a + b, c) == Without(a, c) + Without(b, c)
  {
    if |a| > 0 {
      assert (a + b)[1..] == a[1..] + b;
      WithoutAppend(a[1..], b, c);
    } else {
      assert a + b == b;
    }
  }

  /** The position of the first occurrence of `c` in `s`, if any. */
  function IndexOf(s: string, c: char): (r: Option<nat>)
    ensures r.None? <==> c !in s
    ensures r.Some? ==> r.value < |s| && s[r.value] == c && c !in s[..r.value]
  {
    if |s| == 0 then None
    else if s[0] == c then Some(0)
    else
      match IndexOf(s[1..], c)
      case None => None
      case Some(i) =>
        assert s[..i + 1] == [s[0]] + s[1..][..i];
        Some(i + 1)
  }

  /** `s.split(c)[1]`: the text between the first `c` and the next one (or
      the end); `None` where Python raises IndexError because `c` does not
      occur. */
  function SecondPiece(s: string, c: char): (r: Option<string>)
    ensures r.None? <==> c !in s
    ensures r.Some? ==> c !in r.value
  {
    match IndexOf(s, c)
    case None => None
    case Some(i) =>
      var rest := s[i + 1..];
      match IndexOf(rest, c)
      case None => Some(rest)
      case Some(j) => Some(rest[..j])
  }

  /** `SecondPiece` finds exactly the text placed after the first separator. */
  lemma {:induction false} SecondPieceOf(head: string, piece: string, tail: string, c: char)
    requires c !in head && c !in piece
    requires tail == [] || tail[0] == c
    ensures SecondPiece(head + [c] + piece + tail, c) == Some(piece)
  {
    var s := head + [c] + piece + tail;
    assert s == head + ([c] + (piece + tail));
    IndexOfAfter(head, piece + tail, c);
    assert s[|head| + 1..] == piece + tail;
    FirstPiece(piece, tail, c);
  }

  /** The text up to the first separator (or the end) of `piece + tail`. */
  lemma FirstPiece(piece: string, tail: string, c: char)
    requires c !in piece
    requires tail == [] || tail[0] == c
    ensures match IndexOf(piece + tail, c)
      case None => piece + tail == piece
      case Some(j) => (piece + tail)[..j] == piece
  {
    if tail == [] {
      assert piece + tail == piece;
    } else {
      assert piece + tail == piece + ([c] + tail[1..]);
      IndexOfAfter(piece, tail[1..], c);
      assert (piece + tail)[..|piece|] == piece;
    }
  }

  lemma {:induction false} IndexOfAfter(head: string, tail: string, c: char)
    requires c !in head
    ensures IndexOf(head + ([c] + tail), c) == Some(|head|)
  {
    var s := head + ([c] + tail);
    if |head| > 0 {
      assert s[1..] == head[1..] + ([c] + tail);
      IndexOfAfter(head[1..], tail, c);
    }
  }

  /** ASCII upper-casing of one character. */
  function Upper(c: char): (u: char)
    ensures 'a' <= c <= 'z' ==> u as int == c as int - 32
    ensures !('a' <= c <= 'z') ==> u == c
  {
    if 'a' <= c <= 'z' then (c as int - 32) as char else c
  }

  predicate NoLower(s: string) {
    forall i :: 0 <= i < |s| ==> !('a' <= s[i] <= 'z')
  }

  /** `s.upper()` on ASCII text: same length, each letter upper-cased. */
  function UpperAll(s: string): (r: string)
    ensures |r| == |s|
    ensures NoLower(r)
    ensures forall i :: 0 <= i < |s| ==> r[i] == Upper(s[i])
  {
    seq(|s|, i requires 0 <= i < |s| => Upper(s[i]))
  }

  function Zeros(k: nat): (s: string)
    ensures |s| == k && AllDigits(s)
  {
    if k == 0 then "" else "0" + Zeros(k - 1)
  }

  /** `'%0<width>d' % n`: the decimal digits of `n`, left-padded with zeros
      to at least `width` characters. */
  function ZeroPad(n: nat, width: nat): (s: string)
    ensures |s| >= width && AllDigits(s)
    ensures ParseNat(s) == Some(n)
  {
    var digits := NatToString(n);
    ParseNatToString(n);
    if |digits| >= width then digits
    else
      LeadingZeros(width - |digits|, digits);
      Zeros(width - |digits|) + digits
  }

  /** The escape Python's `repr` writes for one character of a string quoted
      with `q`. */
  function EscapeChar(x: char, q: char): (r: string)
    ensures x != q && x !in ReprSpecial ==> r == [x]
  {
    if x == '\\' then "\\\\"
    else if x == '\n' then "\\n"
    else if x == '\r' then "\\r"
    else if x == '\t' then "\\t"
    else if x == q then ['\\', q]
    else [x]
  }

  const ReprSpecial: set<char> := {'\\', '\n', '\r', '\t'}

  function Escaped(s: string, q: char): string {
    if |s| == 0 then "" else EscapeChar(s[0], q) + Escaped(s[1..], q)
  }

  /** Python's `repr` of a string: in single quotes, unless the text holds a
      single quote and no double quote; backslash, newline, carriage return,
      tab and the chosen quote are escaped. */
  function Repr(s: string): (r: string)
    ensures |r| >= 2 && r[0] == r[|r| - 1]
    ensures r[0] == (if '\'' in s && '"' !in s then '"' else '\'')
  {
    var q := if '\'' in s && '"' !in s then '"' else '\'';
    [q] + Escaped(s, q) + [q]
  }

  /** Text with nothing to escape is repeated verbatim. */
  lemma {:induction false} EscapedPlain(s: string, q: char)
    requires q !in s
    requires forall i :: 0 <= i < |s| ==> s[i] !in ReprSpecial
    ensures Escaped(s, q) == s
  {
    if |s| > 0 {
      EscapedPlain(s[1..], q);
      assert s == [s[0]] + s[1..];
    }
  }

  /** The common case: text without quotes, backslashes or line breaks is
      shown between single quotes. */
  lemma ReprPlain(s: string)
    requires '\'' !in s
    requires forall i :: 0 <= i < |s| ==> s[i] !in ReprSpecial
    ensures Repr(s) == "'" + s + "'"
  {
    EscapedPlain(s, '\'');
  }
}

=== FILE: views.dfy ===
/** The three REST actions on the bookkeeping tables: re-running a job
    (`POST jobs/{id}/run/`), listing a job's log (`GET jobs/{id}/logs/`) and
    scheduling a job from a configuration (`POST configs/{id}/schedule/`).
    Serialization is left out: a response is its status and the rows or ids
    it carries. */
module ScraperViews {
  import opened Wrappers
  import opened Ledger
  import opened Scrapers

  datatype Response =
    | JobCompleted
    | AlreadyRunning
    | NotFound
    | ScraperMissing
    | JobScheduled(jobId: int)

  /** The HTTP status of each response. */
  function StatusCode(r: Response): nat {
    match r
    case JobCompleted => 200
    case AlreadyRunning => 400
    case NotFound => 404
    case ScraperMissing => 500
    case JobScheduled(_) => 200
  }

  /** The state a job is put back into before it is re-run. */
  function Reset(j: ScraperJob): (j': ScraperJob)
    ensures j'.status == Pending && SameOrder(j, j')
    ensures j'.startTime.None? && j'.endTime.None? && j'.errorMessage.None?
  {
    j.(status := Pending, startTime := None, endTime := None, errorMessage := None)
  }

  /** `ScraperJobViewSet.run`: an unknown id is 404 and a RUNNING job is
      refused with 400, both without any write; any other job is re-run. */
  function RunAction(w: World, pk: int, env: Env): (r: (World, Response))
    ensures pk !in w.jobs ==> r == (w, NotFound)
    ensures pk in w.jobs && w.jobs[pk].status == Running ==> r == (w, AlreadyRunning)
    ensures pk in w.jobs && w.jobs[pk].status != Running ==> r == Rerun(w, pk, env)
    ensures StatusCode(r.1) == 404 <==> pk !in w.jobs
    ensures StatusCode(r.1) == 400 <==> pk in w.jobs && w.jobs[pk].status == Running
    ensures r.0.jobs.Keys == w.jobs.Keys && LogsOnlyFor(w, r.0, pk)
    ensures Valid(w) ==> Valid(r.0)
  {
    if pk !in w.jobs then (w, NotFound)
    else if w.jobs[pk].status == Running then (w, AlreadyRunning)
    else Rerun(w, pk, env)
  }

  /** The re-run itself: the job is reset and dispatched. A job without a
      scraper (LIVE) answers 500 and stays reset to PENDING. */
  function Rerun(w: World, pk: int, env: Env): (r: (World, Response))
    requires pk in w.jobs
    ensures var reset := w.(jobs := w.jobs[pk := Reset(w.jobs[pk])]);
      && (r.1 == JobCompleted <==> w.jobs[pk].jobType != LiveData)
      && (r.1 == ScraperMissing <==> w.jobs[pk].jobType == LiveData)
      && (w.jobs[pk].jobType == LiveData ==> r.0 == reset && r.0.jobs[pk].status == Pending)
      && (w.jobs[pk].jobType != LiveData && pk != 0 ==> Lifecycle(reset, r.0, pk))
    ensures StatusCode(r.1) == if w.jobs[pk].jobType == LiveData then 500 else 200
    ensures r.0.jobs.Keys == w.jobs.Keys && LogsOnlyFor(w, r.0, pk)
    ensures Valid(w) ==> Valid(r.0)
  {
    var w1 := ResetJob(w, pk);
    var (w', built) := Dispatch(w1, w.jobs[pk].jobType, pk, env);
    LogsOnlyForTransitive(w, w1, w', pk);
    (w', if built then JobCompleted else ScraperMissing)
  }

  /** The reset written back: only job `pk` changes, and only as `Reset`
      says. */
  function ResetJob(w: World, pk: int): (w': World)
    requires pk in w.jobs
    ensures w'.jobs.Keys == w.jobs.Keys && w'.jobs[pk] == Reset(w.jobs[pk])
    ensures forall j :: j in w.jobs && j != pk ==> w'.jobs[j] == w.jobs[j]
    ensures w'.logs == w.logs && w'.clock == w.clock && w'.nextJobId == w.nextJobId
    ensures LogsOnlyFor(w, w', pk)
    ensures Valid(w) ==> Valid(w')
  {
    w.(jobs := w.jobs[pk := Reset(w.jobs[pk])])
  }

  /** The rows of `logs` that belong to job `id`, in their order. */
  function OfJob(logs: seq<LogEntry>, id: int): (r: seq<LogEntry>)
    ensures forall e :: e in r <==> e in logs && e.job == id
  {
    if |logs| == 0 then []
    else
      var rest := OfJob(logs[1..], id);
      assert forall e :: e in rest ==> e in logs[1..];
      if logs[0].job == id then [logs[0]] + rest else rest
  }

  /** The job's rows keep the log's time order. */
  lemma {:induction false} OfJobChronological(logs: seq<LogEntry>, id: int)
    ensures Chronological(logs) ==> Chronological(OfJob(logs, id))
    decreases |logs|
  {
    if |logs| > 0 && Chronological(logs) {
      ChronologicalTail(logs);
      OfJobChronological(logs[1..], id);
      if logs[0].job == id {
        ChronologicalCons(logs[0], OfJob(logs[1..], id));
      }
    }
  }

  lemma ChronologicalTail(logs: seq<LogEntry>)
    requires |logs| > 0 && Chronological(logs)
    ensures Chronological(logs[1..])
    ensures forall e :: e in logs[1..] ==> logs[0].timestamp < e.timestamp
  {
    forall i, j | 0 <= i < j < |logs| - 1 ensures logs[1..][i].timestamp < logs[1..][j].timestamp {
      assert logs[1..][i] == logs[i + 1] && logs[1..][j] == logs[j + 1];
    }
    forall e | e in logs[1..] ensures logs[0].timestamp < e.timestamp {
      var m :| 0 <= m < |logs| - 1 && logs[1..][m] == e;
      assert logs[m + 1] == e;
    }
  }

  lemma ChronologicalCons(x: LogEntry, rest: seq<LogEntry>)
    requires Chronological(rest)
    requires forall e :: e in rest ==> x.timestamp < e.timestamp
    ensures Chronological([x] + rest)
  {
    var r := [x] + rest;
    forall i, j | 0 <= i < j < |r| ensures r[i].timestamp < r[j].timestamp {
      assert r[j] == rest[j - 1];
      if i > 0 {
        assert r[i] == rest[i - 1];
      }
    }
  }

  /** Newest first: reversing rows in time order lists them in strictly
      decreasing time order, with the same members. */
  lemma NewestFirst(rows: seq<LogEntry>)
    ensures forall e :: e in Reverse(rows) <==> e in rows
    ensures Chronological(rows) ==>
      forall i, j :: 0 <= i < j < |rows| ==> Reverse(rows)[i].timestamp > Reverse(rows)[j].timestamp
  {
    var r := Reverse(rows);
    forall e | e in rows ensures e in r {
      var i :| 0 <= i < |rows| && rows[i] == e;
      assert r[|rows| - 1 - i] == e;
    }
  }

  function Reverse<T>(s: seq<T>): (r: seq<T>)
    ensures |r| == |s|
    ensures forall i :: 0 <= i < |s| ==> r[i] == s[|s| - 1 - i]
  {
    if |s| == 0 then [] else Reverse(s[1..]) + [s[0]]
  }

  /** `ScraperJobViewSet.logs`: 404 for an unknown job; otherwise exactly
      the job's log rows, newest first (the table's ordering is by
      descending timestamp, and rows are appended in clock order). */
  function LogsAction(w: World, pk: int): (r: Result<seq<LogEntry>, Response>)
    ensures r.Failure? <==> pk !in w.jobs
    ensures r.Failure? ==> r.error == NotFound && StatusCode(r.error) == 404
    ensures r.Success? ==> forall e :: e in r.value <==> e in w.logs && e.job == pk
    ensures r.Success? && Valid(w) ==>
      forall i, j :: 0 <= i < j < |r.value| ==> r.value[i].timestamp > r.value[j].timestamp
  {
    if pk !in w.jobs then Failure(NotFound)
    else
      var rows := OfJob(w.logs, pk);
      OfJobChronological(w.logs, pk);
      NewestFirst(rows);
      Success(Reverse(rows))
  }

  /** `ScraperConfigViewSet.schedule`: 404 for an unknown configuration;
      otherwise a new PENDING job with the configuration's type and URL
      pattern is created (and not run), and the configuration's last run
      is stamped after it. Whether the configuration is active is not
      checked. */
  function Schedule(w: World, pk: int): (r: (World, Response))
    ensures pk !in w.configs ==> r == (w, NotFound)
    ensures StatusCode(r.1) == if pk in w.configs then 200 else 404
    ensures pk in w.configs ==>
      var c := w.configs[pk];
      var id := w.nextJobId;
      && r.1 == JobScheduled(id)
      && r.0.jobs == w.jobs[id := NewJob(c.scraperType, c.urlPattern, w.clock)]
      && r.0.nextJobId == id + 1
      && pk in r.0.configs
      && r.0.configs == w.configs[pk := c.(lastRun := r.0.configs[pk].lastRun)]
      && r.0.configs[pk].lastRun.Some? && r.0.configs[pk].lastRun.value > w.clock
      && r.0.logs == w.logs && r.0.store == w.store && r.0.sources == w.sources
    ensures Valid(w) ==> Valid(r.0)
    ensures Valid(w) && pk in w.configs ==>
      r.1.JobScheduled? && r.1.jobId !in w.jobs && r.0.jobs.Keys == w.jobs.Keys + {r.1.jobId}
  {
    if pk !in w.configs then (w, NotFound)
    else
      var c := w.configs[pk];
      var (w1, id) := Enqueue(w, c.scraperType, c.urlPattern);
      var w2 := w1.(configs := w1.configs[pk := c.(lastRun := Some(w1.clock))], clock := w1.clock + 1);
      (w2, JobScheduled(id))
  }

  // ---------------------------------------------------------------------
  // Properties

  /** Rows of other jobs appended to the log do not show in a job's list. */
  lemma {:induction false} OfJobIgnoresOthers(prefix: seq<LogEntry>, suffix: seq<LogEntry>, id: int)
    requires forall i :: 0 <= i < |suffix| ==> suffix[i].job != id
    ensures OfJob(prefix + suffix, id) == OfJob(prefix, id)
    decreases |prefix|
  {
    if |prefix| == 0 {
      assert prefix + suffix == suffix;
      OfJobNone(suffix, id);
    } else {
      assert (prefix + suffix)[1..] == prefix[1..] + suffix;
      OfJobIgnoresOthers(prefix[1..], suffix, id);
    }
  }

  lemma {:induction false} OfJobNone(logs: seq<LogEntry>, id: int)
    requires forall i :: 0 <= i < |logs| ==> logs[i].job != id
    ensures OfJob(logs, id) == []
    decreases |logs|
  {
    if |logs| > 0 {
      OfJobNone(logs[1..], id);
    }
  }

  /** Re-running job `pk` leaves the log list of every other job exactly as
      it was: a run writes rows for its own job only. */
  lemma RunLeavesOtherLogs(w: World, pk: int, q: int, env: Env)
    requires q != pk
    ensures LogsAction(RunAction(w, pk, env).0, q) == LogsAction(w, q)
  {
    OthersUnaffected(w, RunAction(w, pk, env).0, pk, q);
  }

  /** Appending rows of job `pk` alone does not change what job `q` lists. */
  lemma OthersUnaffected(w: World, w': World, pk: int, q: int)
    requires LogsOnlyFor(w, w', pk) && w'.jobs.Keys == w.jobs.Keys && q != pk
    ensures LogsAction(w', q) == LogsAction(w, q)
  {
    var n := |w.logs|;
    var suffix := w'.logs[n..];
    assert w'.logs == w.logs + suffix;
    forall i | 0 <= i < |suffix| ensures suffix[i].job != q {
      assert suffix[i] == w'.logs[n + i];
    }
    OfJobIgnoresOthers(w.logs, suffix, q);
  }

  /** How a job ended before is forgotten by a re-run: two jobs that differ
      only in status, times and error message (neither RUNNING) re-run to
      the same state and response. */
  lemma RerunForgetsPreviousOutcome(w: World, pk: int, j: ScraperJob, env: Env)
    requires pk in w.jobs && w.jobs[pk].status != Running
    requires j.status != Running && SameOrder(w.jobs[pk], j)
    ensures RunAction(w.(jobs := w.jobs[pk := j]), pk, env) == RunAction(w, pk, env)
  {
    assert Reset(j) == Reset(w.jobs[pk]);
    assert w.(jobs := w.jobs[pk := j]).(jobs := w.jobs[pk := j][pk := Reset(j)])
        == w.(jobs := w.jobs[pk := Reset(w.jobs[pk])]);
  }
}

=== FILE: wrappers.dfy ===
/** Option and Result, the failure-carrying values used throughout the model.
    Result works with Dafny's `:-` so that a field access that fails stops
    the rest of an extraction step, as an uncaught exception does in the
    scrapers. */
module Wrappers {

  datatype Option<+T> = None | Some(value: T)

  datatype Result<+T, +E> = Success(value: T) | Failure(error: E) {

    predicate IsFailure() {
      Failure?
    }

    function PropagateFailure<U>(): Result<U, E>
      requires Failure?
    {
      Failure(error)
    }

    function Extract(): T
      requires Success?
    {
      value
    }
  }
}
